=== FILE: README.md ===
# New Relic Python agent: utilization sanitising, RUM injection and log instrumentation

This project models four pieces of the New Relic Python agent in Dafny and
proves properties about them.

- **Cloud utilization metadata** (`newrelic/common/utilization_common.py`).
  `valid_length` checks the 255-byte UTF-8 limit. `valid_chars` checks the
  character class. `normalize` strips a value and accepts it only when it is
  non-empty and passes both checks. `sanitize` walks a vendor's expected keys
  and either returns every normalised value or records one supportability
  error for the first key it rejects (`record_error`). Modules: `Utilization`,
  with the UTF-8 encoder and decoder it needs.
- **Browser monitoring injection for Django** (`insert_rum` and the
  browser-timing helpers in `newrelic/imports/framework/django.py`). The timing
  header goes after the `<head ...>` tag, or into a synthesised `<head>` before
  `<body`. The footer goes before the last `</body>` in the final 1024
  characters. Modules: `BrowserRum`, and `Text` for the windowed
  `find`/`rfind`, `startswith`, lower-casing and splicing.
- **Standard-library logging hooks** (`newrelic/hooks/internal_logging.py`).
  `add_nr_linking_metadata` writes the
  `NR-LINKING|guid|hostname|trace.id|span.id|entity.name|` suffix.
  `wrap_callHandlers` counts log lines as `Logging/lines` and
  `Logging/lines/<level>` metrics, skips the agent's own `newrelic.*` loggers
  and notes when local decorating is on. Modules: `Linking`, `LogContext`
  (settings selection, metric target, line metrics) and `InternalLogging`.
- **Loguru hooks** (`newrelic/hooks/logger_loguru.py`). The forwarding sink
  `_nr_log_forwarder` records the metrics and one log event with the
  undecorated message. The `patcher` property wraps whatever patcher is
  configured, so the message is decorated after the user's patcher runs
  (corrected; see Findings).
  `patch_loguru_logger` installs both, once per core. Module: `Loguru`.

What the hooks look up at run time is passed in as an `Ambient` value: the
current transaction, the global settings, the application and the linking
metadata. A metric or log-event call is returned as data, not performed.

## Model

| member | source | states |
|---|---|---|
| Utilization.DecodeEncode | newrelic/common/utilization_common.py:11-13 | the UTF-8 encoding whose length `valid_length` measures is lossless: decoding it gives the string back |
| Utilization.EncodeLengthBounds | newrelic/common/utilization_common.py:11-13 | a string's UTF-8 size lies between one and four bytes per character |
| Utilization.ValidLength | newrelic/common/utilization_common.py:11-13 | a value within the 255-byte limit has at most 255 characters, and one of 63 characters or fewer always passes |
| Utilization.ValidLengthAscii | newrelic/common/utilization_common.py:11-13 | for ASCII text the test is exactly "at most 255 characters" |
| Utilization.ValidChars | newrelic/common/utilization_common.py:16-23 | true exactly when every ASCII character of the value is in `[0-9a-zA-Z_ ./-]`; non-ASCII characters never fail |
| Utilization.Strip | newrelic/common/utilization_common.py:72 | the stripped value has no whitespace at either end |
| Utilization.StripSlice | newrelic/common/utilization_common.py:72 | the stripped value is a slice of the input with only whitespace before and after it |
| Utilization.StripUnique | newrelic/common/utilization_common.py:72 | stripping a trimmed text wrapped in any whitespace gives exactly that text |
| Utilization.StripIdempotent | newrelic/common/utilization_common.py:72 | stripping twice equals stripping once |
| Utilization.Normalize | newrelic/common/utilization_common.py:69-77 | a result is the stripped string and is non-empty, trimmed, at most 255 bytes and of valid characters; a string whose strip passes all of these is accepted; a non-string value is rejected |
| Utilization.NormalizeIdempotent | newrelic/common/utilization_common.py:69-77 | a value `normalize` produced is accepted unchanged when normalised again |
| Utilization.NormalizeIgnoresPadding | newrelic/common/utilization_common.py:69-77 | a valid value is accepted as itself whatever whitespace surrounds it |
| Utilization.Sanitize | newrelic/common/utilization_common.py:80-95 | a map is returned exactly when every expected key is accepted; it then has exactly the expected keys and their normalised values, and no error is reported; otherwise exactly one `Supportability/utilization/<vendor>/error` report is made, carrying the value of the first rejected key |
| Utilization.BaseAcceptedIsClean | newrelic/common/utilization_common.py:80-95 | with the base `normalize`, a kept value is the stripped metadata string and passes every check |
| Utilization.BaseRejection | newrelic/common/utilization_common.py:82-91 | with the base `normalize`, a key is rejected exactly when it is missing, its value is not a string, or the stripped string is empty, too long or holds a forbidden character |
| Text.Find | newrelic/imports/framework/django.py:22-25 | the lowest start of a whole match inside the window; None exactly when the window holds no match |
| Text.RFind | newrelic/imports/framework/django.py:23 | the highest start of a whole match inside the window; None exactly when the window holds no match |
| Text.AsciiLower | newrelic/imports/framework/django.py:15 | same length; every ASCII capital is lowered and every other character is kept |
| BrowserRum.IsHtml | newrelic/imports/framework/django.py:15-16 | true exactly when the first nine characters spell `text/html` in any letter case and are followed by the end of the header or by `;` |
| BrowserRum.TimingHeader | newrelic/imports/framework/django.py:52-56 | empty outside a transaction, the transaction's timing header inside one |
| BrowserRum.TimingFooter | newrelic/imports/framework/django.py:58-62 | empty outside a transaction, the transaction's timing footer inside one |
| BrowserRum.HeadStart | newrelic/imports/framework/django.py:22 | the first `<head` in the content, or None when there is none |
| BrowserRum.FooterPoint | newrelic/imports/framework/django.py:23 | the last `</body>` starting in the final 1024 characters, or None when that window has none |
| BrowserRum.HeadTagEnd | newrelic/imports/framework/django.py:25 | the first `>` less than 1024 characters after `<head`, or None when there is none |
| BrowserRum.BodyStart | newrelic/imports/framework/django.py:37 | the first `<body` in the content, or None when there is none |
| BrowserRum.Splice | newrelic/imports/framework/django.py:22-49 | the content is unchanged when no `</body>` starts in the final 1024 characters; the two insertion cases are stated by `SpliceHead` and `SpliceBody` |
| BrowserRum.SpliceHead | newrelic/imports/framework/django.py:24-35 | at the located `<head ...>` tag end and footer point, the splice is the footer inserted at the footer point and then the header inserted after the tag; the length grows by both sizes and cutting both out gives the content back |
| BrowserRum.SpliceBody | newrelic/imports/framework/django.py:36-49 | at the located `<body` and footer point, the splice is the footer inserted at the footer point and then `<head>header</head>` inserted before `<body` |
| BrowserRum.InsertRum | newrelic/imports/framework/django.py:9-50 | the Content-Type is never changed; the response is returned untouched when auto-instrumentation is off, outside a transaction, for non-HTML content, when the header or footer is empty, or when no `</body>` starts in the final 1024 characters |
| BrowserRum.HeadBranch | newrelic/imports/framework/django.py:24-35 | with a `<head ...>` tag closing before the footer point, the header is inserted right after the tag and the footer right before the last `</body>`; the length grows by exactly their sizes and cutting both out gives the original page |
| BrowserRum.HeadWithoutTagEnd | newrelic/imports/framework/django.py:24-26 | when `<head` is present but no `>` follows it within the window before the footer point, the page is unchanged, even if it has a `<body` |
| BrowserRum.BodyBranch | newrelic/imports/framework/django.py:36-49 | with no `<head` and a `<body` before the footer point, `<head>header</head>` is inserted before the first `<body` and the footer before the last `</body>`; the length grows by the two sizes plus 13, and cutting both out gives the original page |
| BrowserRum.BodyWithoutOpenTag | newrelic/imports/framework/django.py:36-38 | with no `<head` and no `<body` before the footer point, the page is unchanged |
| Linking.AddLinkingMetadata | newrelic/hooks/internal_logging.py:38-47 | when no field contains the separator, the decorated line reads back as the original message, whatever it contains, followed by guid, hostname, trace id, span id and encoded entity name in that order, each defaulting to empty |
| Linking.ServiceOnlyDecoration | newrelic/hooks/internal_logging.py:38-47 | with no trace or span id in the metadata, the suffix holds the guid and hostname, then two empty fields, then the encoded entity name |
| Linking.OutsideTransactionFields | newrelic/hooks/internal_logging.py:38-47 | dropping the trace and span ids from the metadata empties exactly those two fields and keeps the message and the service fields |
| LogContext.ActiveSettings | newrelic/hooks/internal_logging.py:66-69 | the transaction's settings when a transaction is active, the global settings otherwise |
| LogContext.MetricTarget | newrelic/hooks/internal_logging.py:73-80 | metrics go to the transaction exactly when one is active, to the application exactly when there is no transaction and the application exists and is enabled, and nowhere otherwise |
| LogContext.LineMetrics | newrelic/hooks/internal_logging.py:71-80 | one count-one `Logging/lines` call and one count-one `Logging/lines/<level>` call, both on the metric target; none without a target |
| LogContext.LevelMetricInjective | newrelic/hooks/internal_logging.py:74-75 | per-level metric names differ from `Logging/lines` and from each other |
| InternalLogging.FirstComponent | newrelic/hooks/internal_logging.py:62-63 | the dot-free prefix of the name that ends at its first dot or at its end |
| InternalLogging.IsAgentLogger | newrelic/hooks/internal_logging.py:62-63 | a logger is skipped exactly when it has a name and that name is `newrelic` or starts with `newrelic.` |
| InternalLogging.AgentLoggerNames | newrelic/hooks/internal_logging.py:63 | a non-empty name's first dot-separated component is `newrelic` exactly when the name is `newrelic` or starts with `newrelic.` |
| InternalLogging.LevelName | newrelic/hooks/internal_logging.py:72 | the record's `levelname` when it has one, `UNKNOWN` otherwise |
| InternalLogging.CallHandlers | newrelic/hooks/internal_logging.py:58-87 | the agent's loggers get no metrics and no marker; otherwise both line metrics are recorded on the metric target exactly when metrics are on, the level name defaulting to `UNKNOWN`, and `_nr_original_message` is set exactly when local decorating is on |
| InternalLogging.LineCounts | newrelic/hooks/internal_logging.py:71-80 | over a run of records, `Logging/lines` totals the number of records and `Logging/lines/<L>` totals the records of level L |
| InternalLogging.NoLineCounts | newrelic/hooks/internal_logging.py:62-71 | nothing is counted for the agent's loggers or with metrics off |
| InternalLogging.HandledFilters | tests/internal_logging/test_application.py:57-79 | the records a logger passes on are exactly those at or above its level: none below is kept and none at or above is dropped |
| InternalLogging.WarningLoggerCounts | tests/internal_logging/test_application.py:57-79 | a logger set to WARNING that logs one record of each level counts 3 lines: one each for WARNING, ERROR and CRITICAL, and none for INFO or DEBUG |
| Loguru.LevelName | newrelic/hooks/logger_loguru.py:34-35 | the level's name when there is a level with a non-empty name, `UNKNOWN` otherwise; never empty |
| Loguru.TruncateToInt | newrelic/hooks/logger_loguru.py:49 | the timestamp rounded toward zero |
| Loguru.ForwardedMessage | newrelic/hooks/logger_loguru.py:25 | the saved `_nr_original_message` when the record has one, its `message` otherwise |
| Loguru.Forwarder | newrelic/hooks/logger_loguru.py:22-51 | nothing with application logging off; both line metrics on the metric target exactly when metrics are on; exactly one log event when forwarding is on, carrying the pre-decoration message, the level name and the truncated timestamp |
| Loguru.Decorate | newrelic/hooks/logger_loguru.py:68-71 | with local decorating on, the message becomes the decorated one and the old message is kept as `_nr_original_message`; otherwise the record is unchanged |
| Loguru.RunPatcher | newrelic/hooks/logger_loguru.py:57-71 | the corrected patcher: an agent patcher with decorating on leaves a displayed message that is the decoration of the saved original; with decorating off and nothing to wrap it leaves the record unchanged |
| Loguru.RunPatcherAsWritten | newrelic/hooks/logger_loguru.py:57-73 | as written, the agent's patcher never returns a record; with decorating off it never raises; with decorating on, an agent patcher wrapped around another agent patcher always raises |
| Loguru.AsWrittenRaisesOnInPlacePatcher | newrelic/hooks/logger_loguru.py:57-71 | as written, a configured patcher that returns None makes the agent's patcher raise when local decorating is on |
| Loguru.AsWrittenCounterexample | newrelic/hooks/logger_loguru.py:57-71 | a concrete record, settings and patcher for which the agent's patcher as written raises |
| Loguru.AsWrittenAgreesWhenRecordReturned | newrelic/hooks/logger_loguru.py:57-71 | when the configured patcher returns its record, the code as written and the corrected patcher leave the same record |
| Loguru.PatchThenForward | newrelic/hooks/logger_loguru.py:57-71 | the corrected patcher decorates the configured patcher's output; the forwarder then sends the undecorated message; with decorating off the record is exactly the configured patcher's output |
| Loguru.GetPatcher | newrelic/hooks/logger_loguru.py:54-73 | before the property is installed a core shows its own patcher; afterwards every core shows the agent's patcher over its `_nr_patcher`, whatever its own attribute holds |
| Loguru.SetPatcher | newrelic/hooks/logger_loguru.py:76-78 | reading the patcher after setting it gives the value set, wrapped in the agent's patcher once the property is installed; sinks and marker are untouched |
| Loguru.PatchLoguruLogger | newrelic/hooks/logger_loguru.py:87-94 | a logger without a core, or one already instrumented, is unchanged and so is the process; otherwise the class property is installed, one forwarder sink is appended, the core is marked and the patcher read back is the agent's, wrapped around the one the core showed before |
| Loguru.PatchIdempotent | newrelic/hooks/logger_loguru.py:88 | patching twice equals patching once |
| Loguru.PatchAddsOneForwarder | newrelic/hooks/logger_loguru.py:88-90 | a patch adds exactly one forwarder sink to a core it acts on and none otherwise |
| Loguru.FirstPatchWrapsOnce | newrelic/hooks/logger_loguru.py:91-93 | on the first core patched, the agent's patcher wraps the core's own patcher once |
| Loguru.PatchShadowsOtherCores | newrelic/hooks/logger_loguru.py:92 | after any core is patched, every other core shows the agent's patcher over its own `_nr_patcher`, so a patcher stored in its own attribute no longer runs |
| Loguru.LaterPatchWrapsTwice | newrelic/hooks/logger_loguru.py:91-93 | on a later core, the class property is already installed and the agent's patcher ends up wrapped in itself, without the core's own patcher |
| Loguru.AsWrittenRaisesOnLaterCore | newrelic/hooks/logger_loguru.py:57-93 | as written, with decorating on, every log call through a later patched core raises, with or without a configured patcher |
| Loguru.CorrectedLaterCoreDecoratesTwice | newrelic/hooks/logger_loguru.py:57-93 | with the corrected patcher a later core does not raise, but the message is decorated twice and the forwarder receives the once-decorated text |
| Loguru.PatchedLogCall | newrelic/hooks/logger_loguru.py:22-94 | with the corrected patcher, after patching the first core of the process twice (`PatchIdempotent` extends this to any number of patches), each log call for a record at or above the forwarder sink's level (DEBUG by default) reaches exactly one forwarder, which sends the configured patcher's undecorated message, while the displayed message carries the linking suffix when decorating is on |

## Left out

- `fetch`, `get_values` and `detect` in utilization_common.py are left out. They do HTTP and JSON decoding. `sanitize` on the `None` that `get_values` returns for bad JSON would raise, and that path is not modelled.
- The warning that `record_error` logs is left out. `ErrorReport` keeps only the metric it increments and the value it reports.
- Lone surrogates are not modelled. Dafny strings hold Unicode scalar values, so the `UnicodeEncodeError` they cause in `valid_length` cannot be expressed. The bare `except` in `normalize` would turn it into None.
- A non-string metadata value is reduced to its truthiness. `strip` then raises and `normalize` gives None, which is all the model keeps.
- `str.lower` on the Content-Type is modelled as ASCII lower-casing. Non-ASCII case rules cannot change whether the header equals or starts with the ASCII `text/html` forms.
- Response content is a string, as the source treats it. Django byte content is not modelled.
- Linking.AddLinkingMetadata: the `urlencode` applied to `entity.name` is a function parameter. Python's `urlencode` on a non-empty `str` raises `TypeError`, and that failure is not modelled.
- The linking-metadata provider (`get_linking_metadata`), the transaction, settings and application lookups, and the metric and log-event recorders are not modelled. They become fields of `Ambient` or returned data.
- The `application_logging` sub-sections (metrics, forwarding, local decorating) are taken to be always present. `application_logging` itself may be missing.
- InternalLogging.CallHandlers: the value stored in `_nr_original_message` is not modelled, only whether it is set. The source stores the bound `getMessage` method, not the message text.
- `wrap_handlers`, `wrap_emit`, `bind_*` and `is_null_handlers` are left out. They do nothing observable, or only delegate.
- `wrap_getMessage` is left out. It would return the decorated message, but the installer wraps only `Logger.callHandlers`. The `emit` wrap is guarded by a `Logger.emit` test, and nothing installs `wrap_getMessage` (internal_logging.py:106-117). So this file never decorates standard-library log lines; it only sets `_nr_original_message`.
- The instrumentation plumbing (`wrap_function_wrapper`, `instrument_loguru_logger`, `wrap_Logger_init`) is left out.
- The tests for internal_logging expect three log events. `wrap_callHandlers` records none, so the model follows the code and states only the metric counts.
- logger_loguru.py imports `add_nr_linking_metadata` from `newrelic.hooks.logger_logging`, which is not part of this model. The model uses the one from internal_logging.py.
- Loguru's own core is not part of the source. It runs the patcher and then every sink whose level the record reaches. `LogCall` and `RunSinks` assume that order, and they take every record to reach every sink's level.
- Loguru.PatchThenForward: the corrected patcher is stated for the first core only. On a later core the agent's patcher wraps itself (`LaterPatchWrapsTwice`). As written, every log call there then raises with decorating on (`AsWrittenRaisesOnLaterCore`). Corrected, it decorates twice and forwards the once-decorated message (`CorrectedLaterCoreDecoratesTwice`). No corrected patch that avoids the double wrap is modelled.
- Loguru.PatchLoguruLogger: the `patcher` property lives on loguru's `Core` class and is shared by every core. It is modelled as one process-wide `installed` flag that the caller passes to `GetPatcher`, `SetPatcher` and each `PatchLoguruLogger` call and takes back from its result; one `Core` value per core holds the rest.
- Loguru.PatchedLogCall: stated for `LogCall`, which runs the corrected patcher. As written, a configured patcher that changes the record in place and returns None makes every call raise, with decorating on, before any sink runs (`AsWrittenRaisesOnInPlacePatcher`). Sink levels are not modelled either. `logger.add` gives the forwarder sink loguru's default level, DEBUG unless `LOGURU_LEVEL` sets another. Loguru skips a sink for a record below that level, and it returns before running the patcher when the record is below every sink's level. So a TRACE record reaches no forwarder, and the one-forwarder claim holds only for records at or above the forwarder's level.
- A configured loguru patcher is modelled as returning either its own record or None (`UserPatch`). One that returns a different dict is not modelled. As written, the agent would decorate that dict while loguru displays the original record.
- A failure inside `record_log_event` is swallowed. `Forwarder` therefore returns the call it made and no error.
- Thread safety of the class-wide `patcher` property and of `current_transaction` is not modelled.
- The other files of the repository (genshi, pymysql, graphql-server hooks, `log_event_node`, `agent.py`, benchmarks) are not part of this model.

## Findings

| source | as written | input that shows it | evidently intended | confidence | as-written member | corrected member |
|---|---|---|---|---|---|---|
| newrelic/hooks/logger_loguru.py:57-59 | `_patcher` rebinds `record` to the configured patcher's return value and then decorates that | a configured loguru patcher that changes the record in place and returns None (loguru's convention), with local decorating on: `None["message"]` raises `TypeError` on every log call. A second input: any log call with decorating on through a core patched after another one; the inner agent patcher returns None to the outer one (`AsWrittenRaisesOnLaterCore`) | call the configured patcher for its in-place effect, then decorate the same record | not executed | Loguru.AsWrittenRaisesOnInPlacePatcher | Loguru.PatchThenForward |

=== FILE: browser_rum.dfy ===
/**
 Browser-monitoring (RUM) script injection into Django HTML responses
 (`insert_rum` in newrelic/imports/framework/django.py).

 The timing header goes right after the `<head ...>` tag and the timing footer
 right before the last `</body>`; a page with no `<head` gets a synthesised
 `<head>header</head>` right before its first `<body`. Only a `</body>` that
 starts within the last 1024 characters is used, and the `>` closing the head
 tag is looked for within 1024 characters of `<head`.
 */
module BrowserRum {
  import opened Wrappers
  import opened Text

  /** Size of the windows `find`/`rfind` are limited to. */
  const Window: nat := 1024

  const HeadOpen := "<head"
  const BodyOpen := "<body"
  const BodyClose := "</body>"
  const TagEnd := ">"
  const HeadStartTag := "<head>"
  const HeadEndTag := "</head>"

  /** The current transaction, reduced to what its browser-timing methods return. */
  datatype TimingSource = TimingSource(timingHeader: string, timingFooter: string)

  /** A Django response: its Content-Type header (if set) and its body. */
  datatype Response = Response(contentType: Option<string>, content: string)

  const HtmlType := "text/html"

  /** The HTML test of `insert_rum`, on the lower-cased header: the header names the HTML type in any letter
      case, alone or followed by parameters after a `;`. */
  function IsHtml(contentType: string): (ok: bool)
    ensures ok <==>
              && |HtmlType| <= |contentType|
              && (forall i :: 0 <= i < |HtmlType| ==> LowerChar(contentType[i]) == HtmlType[i])
              && (|contentType| == |HtmlType| || contentType[|HtmlType|] == ';')
  {
    var ctype := AsciiLower(contentType);
    ctype == HtmlType || StartsWith(ctype, HtmlType + ";")
  }

  /** `newrelic_browser_timing_header`: empty outside a transaction. */
  function TimingHeader(txn: Option<TimingSource>): (r: string)
    ensures txn.None? ==> r == ""
    ensures txn.Some? ==> r == txn.value.timingHeader
  {
    match txn
    case None => ""
    case Some(t) => t.timingHeader
  }

  /** `newrelic_browser_timing_footer`: empty outside a transaction. */
  function TimingFooter(txn: Option<TimingSource>): (r: string)
    ensures txn.None? ==> r == ""
    ensures txn.Some? ==> r == txn.value.timingFooter
  {
    match txn
    case None => ""
    case Some(t) => t.timingFooter
  }

  // ---------------------------------------------------------------------------
  // Where the pieces go

  /** `e` is the start of the last `</body>` and lies in the final window. */
  ghost predicate IsFooterPoint(c: string, e: nat) {
    && |c| <= e + Window
    && MatchAt(c, BodyClose, e)
    && forall j :: e < j ==> !MatchAt(c, BodyClose, j)
  }

  /** No `</body>` starts in the final window. */
  ghost predicate NoFooterPoint(c: string) {
    forall j :: 0 <= j && |c| <= j + Window ==> !MatchAt(c, BodyClose, j)
  }

  /** `g` is the first `>` at or after `s` and less than `Window` past it. */
  ghost predicate IsHeadTagEnd(c: string, s: nat, g: nat) {
    && s <= g < s + Window
    && g < |c| && c[g] == '>'
    && forall j :: s <= j < g ==> c[j] != '>'
  }

  /** The last `</body>` that starts within the final 1024 characters. */
  function FooterPoint(c: string): (r: Option<nat>)
    ensures r.Some? ==> IsFooterPoint(c, r.value)
    ensures r.None? ==> NoFooterPoint(c)
  {
    var lo := if |c| >= Window then |c| - Window else 0;
    RFind(c, BodyClose, lo, |c|)
  }

  /** The first `<head` anywhere in the content. */
  function HeadStart(c: string): (r: Option<nat>)
    ensures r.Some? ==> IsFirstMatch(c, HeadOpen, r.value)
    ensures r.None? ==> NoMatch(c, HeadOpen)
  {
    Find(c, HeadOpen, 0, |c|)
  }

  /** The first `>` within the 1024 characters from the `<head` at `start`. */
  function HeadTagEnd(c: string, start: nat): (r: Option<nat>)
    ensures r.Some? ==> IsHeadTagEnd(c, start, r.value)
    ensures r.None? ==> forall j :: start <= j < start + Window && j < |c| ==> c[j] != '>'
  {
    MatchSingle(c, '>');
    Find(c, TagEnd, start, Min(start + Window, |c|))
  }

  /** The first `<body` anywhere in the content. */
  function BodyStart(c: string): (r: Option<nat>)
    ensures r.Some? ==> IsFirstMatch(c, BodyOpen, r.value)
    ensures r.None? ==> NoMatch(c, BodyOpen)
  {
    Find(c, BodyOpen, 0, |c|)
  }

  // ---------------------------------------------------------------------------
  // insert_rum

  /** The content splice of `insert_rum`, once the header and footer are known
      to be non-empty. */
  function Splice(c: string, header: string, footer: string): (r: string)
    ensures FooterPoint(c).None? ==> r == c
  {
    var start := HeadStart(c);
    var end := FooterPoint(c);
    if start.Some? && end.Some? then
      var gt := HeadTagEnd(c, start.value);
      if gt.Some? && gt.value < end.value then
        var g, e := gt.value, end.value;
        c[..g + 1] + header + c[g + 1..e] + footer + c[e..]
      else
        c
    else if start.None? && end.Some? then
      var body := BodyStart(c);
      if body.Some? && body.value < end.value then
        var b, e := body.value, end.value;
        var head := HeadStartTag + header + HeadEndTag;
        c[..b] + head + c[b..e] + footer + c[e..]
      else
        c
    else
      c
  }

  /** `insert_rum` runs its splice only with auto-instrumentation on, inside a
      transaction, for an HTML response, with a non-empty header and footer. */
  predicate Injects(autoInstrument: bool, txn: Option<TimingSource>, response: Response) {
    && autoInstrument
    && txn.Some?
    && IsHtml(response.contentType.GetOr(""))
    && txn.value.timingHeader != ""
    && txn.value.timingFooter != ""
  }

  /** `insert_rum(request, response)`: the response with the browser timing
      header and footer inserted into its content. */
  function InsertRum(autoInstrument: bool, txn: Option<TimingSource>, response: Response): (r: Response)
    ensures r.contentType == response.contentType
    ensures !Injects(autoInstrument, txn, response) ==> r == response
    ensures NoFooterPoint(response.content) ==> r == response
  {
    if !autoInstrument then response
    else if txn.None? then response
    else if !IsHtml(response.contentType.GetOr("")) then response
    else
      var header := txn.value.timingHeader;
      var footer := txn.value.timingFooter;
      if header == "" || footer == "" then response
      else response.(content := Splice(response.content, header, footer))
  }

  // ---------------------------------------------------------------------------
  // What the splice does

  /** When `insert_rum` injects, only the content changes, by the splice. */
  lemma InjectsSplices(autoInstrument: bool, txn: Option<TimingSource>, response: Response)
    requires Injects(autoInstrument, txn, response)
    ensures InsertRum(autoInstrument, txn, response)
         == response.(content := Splice(response.content, txn.value.timingHeader, txn.value.timingFooter))
  {
  }

  /** Head branch: the header follows the `<head ...>` tag, the footer precedes
      the last `</body>`, and nothing else of the page changes. */
  lemma HeadBranch(autoInstrument: bool, txn: Option<TimingSource>, response: Response, s: nat, g: nat, e: nat)
    requires Injects(autoInstrument, txn, response)
    requires IsFirstMatch(response.content, HeadOpen, s)
    requires IsHeadTagEnd(response.content, s, g)
    requires IsFooterPoint(response.content, e)
    requires g < e
    ensures var c, h, f := response.content, txn.value.timingHeader, txn.value.timingFooter;
            var r := InsertRum(autoInstrument, txn, response).content;
            && r == InsertAt(InsertAt(c, e, f), g + 1, h)
            && |r| == |c| + |h| + |f|
            && Cut(Cut(r, g + 1, |h|), e, |f|) == c
  {
    var c, h, f := response.content, txn.value.timingHeader, txn.value.timingFooter;
    InjectsSplices(autoInstrument, txn, response);
    SpliceHead(c, h, f, s, g, e);
  }

  /** Head branch without a usable tag end: when `<head` is present but no `>`
      follows it within the window before the footer point, the page is
      unchanged, even if it has a `<body`. */
  lemma HeadWithoutTagEnd(autoInstrument: bool, txn: Option<TimingSource>, response: Response, s: nat, e: nat)
    requires IsFirstMatch(response.content, HeadOpen, s)
    requires IsFooterPoint(response.content, e)
    requires forall j :: s <= j < s + Window && j < e ==> response.content[j] != '>'
    ensures InsertRum(autoInstrument, txn, response) == response
  {
    var c := response.content;
    FirstMatchUnique(c, HeadOpen, s);
    FooterPointUnique(c, e);
  }

  /** Body branch: with no `<head` anywhere, `<head>header</head>` is inserted
      right before the first `<body` and the footer before the last `</body>`. */
  lemma BodyBranch(autoInstrument: bool, txn: Option<TimingSource>, response: Response, b: nat, e: nat)
    requires Injects(autoInstrument, txn, response)
    requires NoMatch(response.content, HeadOpen)
    requires IsFirstMatch(response.content, BodyOpen, b)
    requires IsFooterPoint(response.content, e)
    requires b < e
    ensures var c, h, f := response.content, txn.value.timingHeader, txn.value.timingFooter;
            var head := HeadStartTag + h + HeadEndTag;
            var r := InsertRum(autoInstrument, txn, response).content;
            && r == InsertAt(InsertAt(c, e, f), b, head)
            && |r| == |c| + |h| + |f| + 13
            && Cut(Cut(r, b, |head|), e, |f|) == c
  {
    var c, h, f := response.content, txn.value.timingHeader, txn.value.timingFooter;
    var head := HeadStartTag + h + HeadEndTag;
    InjectsSplices(autoInstrument, txn, response);
    SpliceBody(c, h, f, b, e);
    InsertTwice(c, b, head, e, f);
  }

  /** Body branch without a `<body` before the footer point: unchanged. */
  lemma BodyWithoutOpenTag(autoInstrument: bool, txn: Option<TimingSource>, response: Response, e: nat)
    requires NoMatch(response.content, HeadOpen)
    requires IsFooterPoint(response.content, e)
    requires forall j :: 0 <= j < e ==> !MatchAt(response.content, BodyOpen, j)
    ensures InsertRum(autoInstrument, txn, response) == response
  {
    var c := response.content;
    FooterPointUnique(c, e);
    assert HeadStart(c).None?;
  }

  lemma SpliceHead(c: string, h: string, f: string, s: nat, g: nat, e: nat)
    requires IsFirstMatch(c, HeadOpen, s)
    requires IsHeadTagEnd(c, s, g)
    requires IsFooterPoint(c, e)
    requires g < e
    ensures Splice(c, h, f) == InsertAt(InsertAt(c, e, f), g + 1, h)
    ensures |Splice(c, h, f)| == |c| + |h| + |f|
    ensures Cut(Cut(Splice(c, h, f), g + 1, |h|), e, |f|) == c
  {
    FirstMatchUnique(c, HeadOpen, s);
    HeadTagEndUnique(c, s, g);
    FooterPointUnique(c, e);
    InsertTwice(c, g + 1, h, e, f);
  }

  lemma SpliceBody(c: string, h: string, f: string, b: nat, e: nat)
    requires NoMatch(c, HeadOpen)
    requires IsFirstMatch(c, BodyOpen, b)
    requires IsFooterPoint(c, e)
    requires b < e
    ensures Splice(c, h, f) == InsertAt(InsertAt(c, e, f), b, HeadStartTag + h + HeadEndTag)
  {
    FirstMatchUnique(c, BodyOpen, b);
    FooterPointUnique(c, e);
    assert HeadStart(c).None?;
    InsertTwice(c, b, HeadStartTag + h + HeadEndTag, e, f);
  }

  // ---------------------------------------------------------------------------
  // The located positions are the unique ones the predicates describe

  lemma FirstMatchUnique(c: string, sub: string, s: nat)
    requires IsFirstMatch(c, sub, s)
    ensures Find(c, sub, 0, |c|) == Some(s)
  {
  }

  lemma HeadTagEndUnique(c: string, s: nat, g: nat)
    requires IsHeadTagEnd(c, s, g)
    ensures HeadTagEnd(c, s) == Some(g)
  {
  }

  lemma FooterPointUnique(c: string, e: nat)
    requires IsFooterPoint(c, e)
    ensures FooterPoint(c) == Some(e)
  {
  }
}

=== FILE: internal_logging.dfy ===
/**
 Log-line metrics for the standard library's `logging` module: the
 `wrap_callHandlers` hook of newrelic/hooks/internal_logging.py.

 Every record a logger hands to its handlers is counted twice, under
 `Logging/lines` and `Logging/lines/<levelname>`, on the transaction when one is
 active and otherwise on the enabled application. Records of the agent's own
 loggers (`newrelic` and its children) are passed through untouched.
 */
module InternalLogging {
  import opened Wrappers
  import opened Text
  import opened LogContext

  /** A `logging.LogRecord`: its numeric level and its `levelname` attribute,
      which a custom record may lack. */
  datatype LogRecord = LogRecord(levelno: int, levelname: Option<string>)

  const AgentLoggerName := "newrelic"

  /** The first dot-separated component of a logger name: everything before the first dot. */
  function FirstComponent(name: string): (r: string)
    ensures |r| <= |name| && r == name[..|r|]
    ensures '.' !in r
    ensures |r| < |name| ==> name[|r|] == '.'
  {
    if name == [] || name[0] == '.' then [] else [name[0]] + FirstComponent(name[1..])
  }

  /** Whether a logger belongs to the agent: it has a name whose first
      component is `newrelic`. The agent's loggers are exactly `newrelic` and the names below it. */
  function IsAgentLogger(loggerName: Option<string>): (ok: bool)
    ensures ok <==> loggerName.Some? && (loggerName.value == AgentLoggerName || StartsWith(loggerName.value, AgentLoggerName + "."))
  {
    match loggerName
    case None => false
    case Some(name) =>
      AgentLoggerNames(name);
      name != [] && FirstComponent(name) == AgentLoggerName
  }

  /** A name's first component is `newrelic` exactly when the name is
      `newrelic` or one below it. */
  lemma AgentLoggerNames(name: string)
    ensures (name != [] && FirstComponent(name) == AgentLoggerName)
        <==> (name == AgentLoggerName || StartsWith(name, AgentLoggerName + "."))
  {
    if name == AgentLoggerName || StartsWith(name, AgentLoggerName + ".") {
      AgentNameHasAgentComponent(name);
    }
    if name != [] && FirstComponent(name) == AgentLoggerName && name != AgentLoggerName {
      AgentComponentIsPrefix(name);
    }
  }

  lemma AgentNameHasAgentComponent(name: string)
    requires name == AgentLoggerName || StartsWith(name, AgentLoggerName + ".")
    ensures FirstComponent(name) == AgentLoggerName
  {
    var n := |AgentLoggerName|;
    if name != AgentLoggerName {
      assert name[..n] == name[..n + 1][..n];
      assert name[n] == name[..n + 1][n];
    }
    assert name[..n] == AgentLoggerName;
    assert '.' !in AgentLoggerName;
    FirstComponentOfPrefix(name, n);
  }

  lemma AgentComponentIsPrefix(name: string)
    requires FirstComponent(name) == AgentLoggerName && name != AgentLoggerName
    ensures StartsWith(name, AgentLoggerName + ".")
  {
    var r := FirstComponent(name);
    assert |r| < |name|;
    assert name[..|r| + 1] == r + ".";
  }

  /** A dot-free prefix followed by a dot (or the end) is the first component. */
  lemma {:induction false} FirstComponentOfPrefix(name: string, n: nat)
    requires n <= |name| && '.' !in name[..n]
    requires n == |name| || name[n] == '.'
    ensures FirstComponent(name) == name[..n]
    decreases n
  {
    if n > 0 {
      assert name[0] == name[..n][0];
      assert name[1..][..n - 1] == name[..n][1..];
      FirstComponentOfPrefix(name[1..], n - 1);
      assert name[..n] == [name[0]] + name[1..][..n - 1];
    }
  }

  /** The record's level name, or `UNKNOWN` when the record has none. */
  function LevelName(record: LogRecord): (r: string)
    ensures record.levelname.Some? ==> r == record.levelname.value
    ensures record.levelname.None? ==> r == Unknown
  {
    record.levelname.GetOr(Unknown)
  }

  /** What one `callHandlers` call records before handing the record on: the
      count metrics, and whether it stores `_nr_original_message` on the record. */
  datatype CallHandlersEffect = CallHandlersEffect(metrics: seq<MetricCall>, savesOriginalMessage: bool)

  /** `wrap_callHandlers`: the wrapped `callHandlers` always runs afterwards. */
  function CallHandlers(amb: Ambient, loggerName: Option<string>, record: LogRecord): (r: CallHandlersEffect)
    ensures IsAgentLogger(loggerName) ==> r == CallHandlersEffect([], false)
    ensures |r.metrics| == 0 || |r.metrics| == 2
    ensures r.metrics != [] <==>
              !IsAgentLogger(loggerName) && MetricsEnabled(ActiveSettings(amb)) && MetricTarget(amb).Some?
    ensures r.metrics != [] ==>
              && r.metrics[0] == MetricCall(MetricTarget(amb).value, LinesMetric, 1)
              && r.metrics[1] == MetricCall(MetricTarget(amb).value, LevelMetric(LevelName(record)), 1)
    ensures r.savesOriginalMessage <==> !IsAgentLogger(loggerName) && LocalDecoratingEnabled(ActiveSettings(amb))
  {
    if IsAgentLogger(loggerName) then
      CallHandlersEffect([], false)
    else
      var settings := ActiveSettings(amb);
      var metrics := if MetricsEnabled(settings) then LineMetrics(amb, LevelName(record)) else [];
      CallHandlersEffect(metrics, LocalDecoratingEnabled(settings))
  }

  /** The records a logger with effective level `threshold` passes on to
      `callHandlers` (the standard library's `isEnabledFor`). */
  function Handled(records: seq<LogRecord>, threshold: int): seq<LogRecord> {
    if records == [] then []
    else (if records[0].levelno >= threshold then [records[0]] else []) + Handled(records[1..], threshold)
  }

  /** `Handled` is the filter on the level: every record passed on is at or
      above the threshold, every such record is passed on, and nothing else is. */
  lemma {:induction false} HandledFilters(records: seq<LogRecord>, threshold: int)
    ensures forall i :: 0 <= i < |Handled(records, threshold)| ==> Handled(records, threshold)[i].levelno >= threshold
    ensures forall x :: x in Handled(records, threshold) <==> x in records && x.levelno >= threshold
    decreases |records|
  {
    if records != [] {
      HandledFilters(records[1..], threshold);
      var head := if records[0].levelno >= threshold then [records[0]] else [];
      var rest := Handled(records[1..], threshold);
      assert Handled(records, threshold) == head + rest;
      forall x
        ensures x in records <==> x == records[0] || x in records[1..]
      {
        assert records == [records[0]] + records[1..];
      }
    }
  }

  /** All metrics recorded while the records are handled one after another. */
  function MetricsFor(amb: Ambient, loggerName: Option<string>, records: seq<LogRecord>): seq<MetricCall> {
    if records == [] then []
    else CallHandlers(amb, loggerName, records[0]).metrics + MetricsFor(amb, loggerName, records[1..])
  }

  /** Number of records whose level name is `levelName`. */
  function CountLevel(records: seq<LogRecord>, levelName: string): nat {
    if records == [] then 0
    else (if LevelName(records[0]) == levelName then 1 else 0) + CountLevel(records[1..], levelName)
  }

  /** With metrics on and a place to record them, `Logging/lines` counts every
      handled record and `Logging/lines/<L>` counts the records of level `L`. */
  lemma {:induction false} LineCounts(amb: Ambient, loggerName: Option<string>, records: seq<LogRecord>, levelName: string)
    requires !IsAgentLogger(loggerName)
    requires MetricsEnabled(ActiveSettings(amb)) && MetricTarget(amb).Some?
    ensures Tally(MetricsFor(amb, loggerName, records), LinesMetric) == |records|
    ensures Tally(MetricsFor(amb, loggerName, records), LevelMetric(levelName)) == CountLevel(records, levelName)
    decreases |records|
  {
    if records != [] {
      var head := CallHandlers(amb, loggerName, records[0]).metrics;
      var rest := MetricsFor(amb, loggerName, records[1..]);
      LineCounts(amb, loggerName, records[1..], levelName);
      TallyAppend(head, rest, LinesMetric);
      TallyAppend(head, rest, LevelMetric(levelName));
      LevelMetricInjective(LevelName(records[0]), levelName);
      LevelMetricInjective(levelName, LevelName(records[0]));
      assert head[1..][1..] == [];
    }
  }

  /** Nothing is counted for the agent's own loggers or with metrics off. */
  lemma {:induction false} NoLineCounts(amb: Ambient, loggerName: Option<string>, records: seq<LogRecord>)
    requires IsAgentLogger(loggerName) || !MetricsEnabled(ActiveSettings(amb))
    ensures MetricsFor(amb, loggerName, records) == []
    decreases |records|
  {
    if records != [] {
      NoLineCounts(amb, loggerName, records[1..]);
    }
  }

  lemma HandledStep(r: LogRecord, rest: seq<LogRecord>, threshold: int)
    ensures Handled([r] + rest, threshold) == (if r.levelno >= threshold then [r] else []) + Handled(rest, threshold)
  {
    assert ([r] + rest)[1..] == rest;
  }

  lemma CountLevelStep(r: LogRecord, rest: seq<LogRecord>, levelName: string)
    ensures CountLevel([r] + rest, levelName) == (if LevelName(r) == levelName then 1 else 0) + CountLevel(rest, levelName)
  {
    assert ([r] + rest)[1..] == rest;
  }

  /** The standard library's level numbers. */
  const Debug := LogRecord(10, Some("DEBUG"))
  const Info := LogRecord(20, Some("INFO"))
  const Warning := LogRecord(30, Some("WARNING"))
  const Error := LogRecord(40, Some("ERROR"))
  const Critical := LogRecord(50, Some("CRITICAL"))

  /** A logger set to WARNING passes on WARNING, ERROR and CRITICAL. */
  lemma HandledAtWarning()
    ensures Handled([Debug, Info, Warning, Error, Critical], 30) == [Warning, Error, Critical]
  {
    HandledStep(Critical, [], 30);
    HandledStep(Error, [Critical], 30);
    HandledStep(Warning, [Error, Critical], 30);
    HandledStep(Info, [Warning, Error, Critical], 30);
    HandledStep(Debug, [Info, Warning, Error, Critical], 30);
  }

  /** One record of each level logged through a logger set to WARNING gives
      three lines, one each of WARNING, ERROR and CRITICAL, and none of the
      lower levels. */
  lemma WarningLoggerCounts(amb: Ambient, loggerName: Option<string>)
    requires !IsAgentLogger(loggerName)
    requires MetricsEnabled(ActiveSettings(amb)) && MetricTarget(amb).Some?
    ensures var calls := MetricsFor(amb, loggerName, Handled([Debug, Info, Warning, Error, Critical], 30));
            && Tally(calls, LinesMetric) == 3
            && Tally(calls, LevelMetric("WARNING")) == 1
            && Tally(calls, LevelMetric("ERROR")) == 1
            && Tally(calls, LevelMetric("CRITICAL")) == 1
            && Tally(calls, LevelMetric("INFO")) == 0
            && Tally(calls, LevelMetric("DEBUG")) == 0
  {
    var handled := Handled([Debug, Info, Warning, Error, Critical], 30);
    HandledAtWarning();
    forall l: string
      ensures CountLevel(handled, l)
           == (if l == "WARNING" then 1 else 0) + (if l == "ERROR" then 1 else 0) + (if l == "CRITICAL" then 1 else 0)
    {
      CountLevelStep(Critical, [], l);
      CountLevelStep(Error, [Critical], l);
      CountLevelStep(Warning, [Error, Critical], l);
    }
    LineCounts(amb, loggerName, handled, "WARNING");
    LineCounts(amb, loggerName, handled, "ERROR");
    LineCounts(amb, loggerName, handled, "CRITICAL");
    LineCounts(amb, loggerName, handled, "INFO");
    LineCounts(amb, loggerName, handled, "DEBUG");
  }
}

=== FILE: linking.dfy ===
/**
 Local log decoration with linking metadata (`add_nr_linking_metadata` in
 newrelic/hooks/internal_logging.py).

 A decorated line is the original message, a space, and the suffix
 `NR-LINKING|guid|hostname|trace.id|span.id|encoded entity.name|`. Keys the
 linking-metadata provider did not supply contribute empty fields.
 */
module Linking {
  import opened Wrappers

  const EntityNameKey := "entity.name"
  const EntityGuidKey := "entity.guid"
  const SpanIdKey := "span.id"
  const TraceIdKey := "trace.id"
  const HostnameKey := "hostname"

  const Marker := "NR-LINKING"
  const Sep: char := '|'

  /** What `get_linking_metadata()` returned. */
  type LinkingMetadata = map<string, string>

  /** The encoding applied to `entity.name` (a URL encoding in the source). */
  type Encoder = string -> string

  /** The metadata value under `key`, or the empty string when it is absent. */
  function Field(md: LinkingMetadata, key: string): string {
    if key in md then md[key] else ""
  }

  /** The five fields of the suffix, in the order they are written. */
  datatype LinkingFields = LinkingFields(guid: string, hostname: string, traceId: string, spanId: string, entityName: string)

  function FieldsOf(md: LinkingMetadata, enc: Encoder): LinkingFields {
    LinkingFields(Field(md, EntityGuidKey), Field(md, HostnameKey), Field(md, TraceIdKey),
                  Field(md, SpanIdKey), enc(Field(md, EntityNameKey)))
  }

  /** The message, a space, then `"|".join` of the marker and the five fields,
      closed by one more `|`. */
  function Decorated(message: string, f: LinkingFields): string {
    message + " " + Marker + [Sep] + f.guid + [Sep] + f.hostname + [Sep] + f.traceId
      + [Sep] + f.spanId + [Sep] + f.entityName + [Sep]
  }

  /** `add_nr_linking_metadata(message)`. The decorated line reads back as the
      original message followed by the guid, hostname, trace id, span id and
      encoded entity name, in that order, whatever the message contains. */
  function AddLinkingMetadata(message: string, md: LinkingMetadata, enc: Encoder): (r: string)
    ensures SeparatorFree(FieldsOf(md, enc)) ==> ParseDecorated(r) == Some((message, FieldsOf(md, enc)))
  {
    var f := FieldsOf(md, enc);
    if SeparatorFree(f) then
      ParseDecoratedOf(message, f);
      Decorated(message, f)
    else
      Decorated(message, f)
  }

  // ---------------------------------------------------------------------------
  // Reading a decorated line back

  /** Splits `s` at its last `sep`: the text before it and the sep-free text after it. */
  function SplitLast(s: string, sep: char): (r: Option<(string, string)>)
    ensures r.Some? ==> s == r.value.0 + [sep] + r.value.1 && sep !in r.value.1
    ensures r.None? ==> sep !in s
  {
    if s == [] then None
    else if s[|s| - 1] == sep then Some((s[..|s| - 1], []))
    else match SplitLast(s[..|s| - 1], sep)
      case None => None
      case Some((a, b)) => Some((a, b + [s[|s| - 1]]))
  }

  /** Splitting `a + [sep] + b` at its last `sep` when `b` has none gives `a` and `b`. */
  lemma {:induction false} SplitLastOf(a: string, sep: char, b: string)
    requires sep !in b
    ensures SplitLast(a + [sep] + b, sep) == Some((a, b))
    decreases |b|
  {
    var s := a + [sep] + b;
    if b == [] {
      assert s[..|s| - 1] == a;
    } else {
      var b' := b[..|b| - 1];
      assert s[|s| - 1] == b[|b| - 1];
      assert s[..|s| - 1] == a + [sep] + b';
      SplitLastOf(a, sep, b');
      assert b' + [b[|b| - 1]] == b;
    }
  }

  /** `s` without `suffix`, when it ends with it. */
  function DropSuffix(s: string, suffix: string): (r: Option<string>)
    ensures r.Some? ==> r.value + suffix == s
  {
    if |suffix| <= |s| && s[|s| - |suffix|..] == suffix then Some(s[..|s| - |suffix|]) else None
  }

  lemma DropSuffixOf(a: string, suffix: string)
    ensures DropSuffix(a + suffix, suffix) == Some(a)
  {
    var s := a + suffix;
    assert s[|s| - |suffix|..] == suffix;
    assert s[..|s| - |suffix|] == a;
  }

  /** The message and the fields of a decorated line, or None when the line
      does not end in a linking suffix. */
  function ParseDecorated(line: string): Option<(string, LinkingFields)> {
    match DropSuffix(line, [Sep])
    case None => None
    case Some(body) =>
      match SplitLast(body, Sep)
      case None => None
      case Some((r1, name)) =>
        match SplitLast(r1, Sep)
        case None => None
        case Some((r2, span)) =>
          match SplitLast(r2, Sep)
          case None => None
          case Some((r3, trace)) =>
            match SplitLast(r3, Sep)
            case None => None
            case Some((r4, host)) =>
              match SplitLast(r4, Sep)
              case None => None
              case Some((r5, guid)) =>
                match DropSuffix(r5, " " + Marker)
                case None => None
                case Some(message) => Some((message, LinkingFields(guid, host, trace, span, name)))
  }

  /** No field of the suffix contains the separator. */
  predicate SeparatorFree(f: LinkingFields) {
    Sep !in f.guid && Sep !in f.hostname && Sep !in f.traceId && Sep !in f.spanId && Sep !in f.entityName
  }

  /** A decorated line reads back as its message and fields. */
  lemma ParseDecoratedOf(message: string, f: LinkingFields)
    requires SeparatorFree(f)
    ensures ParseDecorated(Decorated(message, f)) == Some((message, f))
  {
    var r5 := message + " " + Marker;
    var r4 := r5 + [Sep] + f.guid;
    var r3 := r4 + [Sep] + f.hostname;
    var r2 := r3 + [Sep] + f.traceId;
    var r1 := r2 + [Sep] + f.spanId;
    var body := r1 + [Sep] + f.entityName;
    DropSuffixOf(body, [Sep]);
    SplitLastOf(r1, Sep, f.entityName);
    SplitLastOf(r2, Sep, f.spanId);
    SplitLastOf(r3, Sep, f.traceId);
    SplitLastOf(r4, Sep, f.hostname);
    SplitLastOf(r5, Sep, f.guid);
    assert r5 == message + (" " + Marker);
    DropSuffixOf(message, " " + Marker);
  }

  /** Outside a transaction the provider supplies no trace or span id: the
      decorated line then has empty trace and span fields. */
  lemma ServiceOnlyDecoration(message: string, md: LinkingMetadata, enc: Encoder)
    requires TraceIdKey !in md && SpanIdKey !in md
    ensures AddLinkingMetadata(message, md, enc)
         == Decorated(message, LinkingFields(Field(md, EntityGuidKey), Field(md, HostnameKey), "", "",
                                             enc(Field(md, EntityNameKey))))
  {
  }

  /** The same call made outside a transaction (the provider's map without the
      trace and span ids) reads back with the same message and service fields
      and with empty trace and span fields. */
  lemma OutsideTransactionFields(message: string, md: LinkingMetadata, enc: Encoder)
    requires SeparatorFree(FieldsOf(md, enc))
    ensures var outside := md - {TraceIdKey, SpanIdKey};
            (ParseDecorated(AddLinkingMetadata(message, outside, enc))
             == Some((message, FieldsOf(md, enc).(traceId := "", spanId := ""))))
  {
    var outside := md - {TraceIdKey, SpanIdKey};
    assert FieldsOf(outside, enc) == FieldsOf(md, enc).(traceId := "", spanId := "");
  }
}

=== FILE: log_context.dfy ===
/**
 What the logging hooks read from the agent at the moment a record is handled:
 the current transaction, the global settings, the application, and the linking
 metadata; and the log-line count metrics both hooks record
 (newrelic/hooks/internal_logging.py and newrelic/hooks/logger_loguru.py).
 */
module LogContext {
  import opened Wrappers

  /** The `application_logging` settings section. */
  datatype LoggingSettings = LoggingSettings(
    enabled: bool,
    metricsEnabled: bool,
    forwardingEnabled: bool,
    localDecoratingEnabled: bool)

  /** A settings object; `application_logging` may be missing or falsy. */
  datatype Settings = Settings(applicationLogging: Option<LoggingSettings>)

  /** The current transaction, reduced to its settings snapshot. */
  datatype TransactionSettings = TransactionSettings(settings: Option<Settings>)

  /** `application_instance(activate=False)`, reduced to whether it is enabled. */
  datatype Application = Application(enabled: bool)

  /** The level name both logging hooks use when a record has none. */
  const Unknown := "UNKNOWN"

  /** Everything the hooks look up instead of receiving as arguments. */
  datatype Ambient = Ambient(
    transaction: Option<TransactionSettings>,
    globalSettings: Option<Settings>,
    application: Option<Application>,
    linking: map<string, string>)

  /** The settings in force: the transaction's when one is active, the global
      ones otherwise. */
  function ActiveSettings(amb: Ambient): (s: Option<Settings>)
    ensures amb.transaction.Some? ==> s == amb.transaction.value.settings
    ensures amb.transaction.None? ==> s == amb.globalSettings
  {
    match amb.transaction
    case Some(t) => t.settings
    case None => amb.globalSettings
  }

  /** Application logging is on: there are settings, they have an `application_logging` section, and it is enabled. */
  predicate LoggingEnabled(s: Option<Settings>) {
    s.Some? && s.value.applicationLogging.Some? && s.value.applicationLogging.value.enabled
  }

  predicate MetricsEnabled(s: Option<Settings>) {
    LoggingEnabled(s) && s.value.applicationLogging.value.metricsEnabled
  }

  predicate ForwardingEnabled(s: Option<Settings>) {
    LoggingEnabled(s) && s.value.applicationLogging.value.forwardingEnabled
  }

  predicate LocalDecoratingEnabled(s: Option<Settings>) {
    LoggingEnabled(s) && s.value.applicationLogging.value.localDecoratingEnabled
  }

  /** Where `record_custom_metric` is called. */
  datatype Target = OnTransaction | OnApplication

  /** One `record_custom_metric(name, {"count": count})` call. */
  datatype MetricCall = MetricCall(target: Target, name: string, count: nat)

  const LinesMetric := "Logging/lines"

  /** The per-level line metric: `Logging/lines/` followed by the level name. */
  function LevelMetric(levelName: string): string {
    LinesMetric + "/" + levelName
  }

  /** The per-level metric names never collide with each other or with the total. */
  lemma LevelMetricInjective(a: string, b: string)
    ensures LevelMetric(a) != LinesMetric
    ensures LevelMetric(a) == LevelMetric(b) ==> a == b
  {
    if LevelMetric(a) == LevelMetric(b) {
      assert a == LevelMetric(a)[|LinesMetric| + 1..];
    }
    assert |LevelMetric(a)| > |LinesMetric|;
  }

  /** The transaction when one is active; otherwise the application when it
      exists and is enabled; otherwise nowhere. */
  function MetricTarget(amb: Ambient): (t: Option<Target>)
    ensures t == Some(OnTransaction) <==> amb.transaction.Some?
    ensures t == Some(OnApplication) <==>
              amb.transaction.None? && amb.application.Some? && amb.application.value.enabled
  {
    if amb.transaction.Some? then Some(OnTransaction)
    else if amb.application.Some? && amb.application.value.enabled then Some(OnApplication)
    else None
  }

  /** The two count-one metrics recorded for one log line of level `levelName`. */
  function LineMetrics(amb: Ambient, levelName: string): (r: seq<MetricCall>)
    ensures MetricTarget(amb).None? ==> r == []
    ensures MetricTarget(amb).Some? ==> |r| == 2 && r[0].name == LinesMetric && r[1].name == LevelMetric(levelName)
    ensures forall i :: 0 <= i < |r| ==> r[i].count == 1 && Some(r[i].target) == MetricTarget(amb)
  {
    match MetricTarget(amb)
    case None => []
    case Some(t) => [MetricCall(t, LinesMetric, 1), MetricCall(t, LevelMetric(levelName), 1)]
  }

  /** Total count recorded under `name`, whatever the target. */
  function Tally(calls: seq<MetricCall>, name: string): nat {
    if calls == [] then 0
    else (if calls[0].name == name then calls[0].count else 0) + Tally(calls[1..], name)
  }

  lemma {:induction false} TallyAppend(a: seq<MetricCall>, b: seq<MetricCall>, name: string)
    ensures Tally(a + b, name) == Tally(a, name) + Tally(b, name)
    decreases |a|
  {
    if a == [] {
      assert a + b == b;
    } else {
      assert (a + b)[0] == a[0];
      assert (a + b)[1..] == a[1..] + b;
      TallyAppend(a[1..], b, name);
    }
  }
}

=== FILE: loguru.dfy ===
/**
 The loguru integration (newrelic/hooks/logger_loguru.py): a sink that counts
 and forwards every record, and a core patcher that decorates the displayed
 message with linking metadata while keeping the undecorated text for
 forwarding.

 A loguru patcher receives the record dict, changes it in place and returns
 nothing; the model follows that convention. The agent's `_patcher` as written
 instead continues with whatever the user's patcher returned (see
 `RunPatcherAsWritten`); `RunPatcher` is the corrected behaviour the rest of
 the model uses.
 */
module Loguru {
  import opened Wrappers
  import opened LogContext
  import opened Linking

  /** A loguru level. Every record has a `level` entry; `None` in
      `Record.level` stands for a present value that is falsy, which the
      `not level` test maps to `UNKNOWN`. */
  datatype Level = Level(name: string)

  /** A loguru record dict, reduced to the keys the hooks read and write;
      `time` is the value of `record["time"].timestamp()`. */
  datatype Record = Record(message: string, originalMessage: Option<string>, level: Option<Level>, time: real)

  /** One `record_log_event(message, level_name, timestamp)` call. */
  datatype LogEventCall = LogEventCall(message: string, level: string, timestamp: int)

  /** What `_nr_log_forwarder` does for one record. */
  datatype ForwarderEffect = ForwarderEffect(metrics: seq<MetricCall>, events: seq<LogEventCall>)

  /** The level's name, or `UNKNOWN` when the record has no level or the name is empty. */
  function LevelName(level: Option<Level>): (r: string)
    ensures r != []
    ensures level.Some? && level.value.name != [] ==> r == level.value.name
    ensures level.None? || level.value.name == [] ==> r == Unknown
  {
    match level
    case None => Unknown
    case Some(l) => if l.name != [] then l.name else Unknown
  }

  /** Python's `int(x)` on a float: rounds toward zero. */
  function TruncateToInt(x: real): (r: int)
    ensures 0.0 <= x ==> 0 <= r && r as real <= x < r as real + 1.0
    ensures x < 0.0 ==> r <= 0 && r as real - 1.0 < x <= r as real
  {
    if x >= 0.0 then x.Floor else -((-x).Floor)
  }

  /** The message the forwarder sends: the saved `_nr_original_message` when the
      patcher stored one, the record's `message` otherwise. */
  function ForwardedMessage(record: Record): (r: string)
    ensures record.originalMessage.Some? ==> r == record.originalMessage.value
    ensures record.originalMessage.None? ==> r == record.message
  {
    record.originalMessage.GetOr(record.message)
  }

  /** `_nr_log_forwarder`: with application logging on, records the two line
      metrics when metrics are on and one log event when forwarding is on. A
      failure inside `record_log_event` is swallowed, so the call is all that
      is observable. */
  function Forwarder(amb: Ambient, record: Record): (r: ForwarderEffect)
    ensures !LoggingEnabled(ActiveSettings(amb)) ==> r == ForwarderEffect([], [])
    ensures |r.metrics| == 0 || |r.metrics| == 2
    ensures r.metrics != [] <==> MetricsEnabled(ActiveSettings(amb)) && MetricTarget(amb).Some?
    ensures r.metrics != [] ==>
              && r.metrics[0] == MetricCall(MetricTarget(amb).value, LinesMetric, 1)
              && r.metrics[1] == MetricCall(MetricTarget(amb).value, LevelMetric(LevelName(record.level)), 1)
    ensures |r.events| <= 1
    ensures r.events != [] <==> ForwardingEnabled(ActiveSettings(amb))
    ensures r.events != [] ==>
              r.events[0] == LogEventCall(ForwardedMessage(record), LevelName(record.level), TruncateToInt(record.time))
  {
    var settings := ActiveSettings(amb);
    if !LoggingEnabled(settings) then
      ForwarderEffect([], [])
    else
      var levelName := LevelName(record.level);
      var metrics := if MetricsEnabled(settings) then LineMetrics(amb, levelName) else [];
      var events := if ForwardingEnabled(settings)
        then [LogEventCall(ForwardedMessage(record), levelName, TruncateToInt(record.time))]
        else [];
      ForwarderEffect(metrics, events)
  }

  // ---------------------------------------------------------------------------
  // Patchers

  /** A patcher stored on a core: one the user configured, known by a number,
      or the agent's `_patcher` closure over the patcher it wraps. */
  datatype Patcher = UserPatcher(id: nat) | AgentPatcher(original: Option<Patcher>)

  /** What a user's patcher does when called: the record as it left it after
      its in-place changes, and whether it also returns that record (loguru
      patchers usually return None). */
  datatype UserPatch = UserPatch(patched: Record, returnsRecord: bool)

  type UserPatchers = (nat, Record) -> UserPatch

  /** The decoration step of `_patcher`: with local decorating on, keep the
      message as `_nr_original_message` and replace it by the decorated one. */
  function Decorate(amb: Ambient, enc: Encoder, record: Record): (r: Record)
    ensures r.level == record.level && r.time == record.time
    ensures !LocalDecoratingEnabled(ActiveSettings(amb)) ==> r == record
    ensures LocalDecoratingEnabled(ActiveSettings(amb)) ==>
              r.originalMessage == Some(record.message)
              && r.message == AddLinkingMetadata(record.message, amb.linking, enc)
  {
    if LocalDecoratingEnabled(ActiveSettings(amb)) then
      record.(originalMessage := Some(record.message), message := AddLinkingMetadata(record.message, amb.linking, enc))
    else
      record
  }

  /** The record after running `p` on it: the user's patcher's in-place
      changes first, then the agent's decoration on that same record. */
  function RunPatcher(p: Patcher, user: UserPatchers, amb: Ambient, enc: Encoder, record: Record): (r: Record)
    ensures p.AgentPatcher? && LocalDecoratingEnabled(ActiveSettings(amb)) ==>
              r.originalMessage.Some? && r.message == AddLinkingMetadata(r.originalMessage.value, amb.linking, enc)
    ensures p.AgentPatcher? && !LocalDecoratingEnabled(ActiveSettings(amb)) && p.original.None? ==> r == record
    decreases p
  {
    match p
    case UserPatcher(id) => user(id, record).patched
    case AgentPatcher(original) =>
      var patched := if original.Some? then RunPatcher(original.value, user, amb, enc, record) else record;
      Decorate(amb, enc, patched)
  }

  /** Outcome of a patcher call as the source writes it: the record after the
      in-place changes and the call's return value, or an exception. */
  datatype PatchRun = Ran(record: Record, returned: Option<Record>) | Raised

  /** `_patcher` as written: it rebinds `record` to the user's patcher's
      return value and decorates that, and it returns None itself. */
  function RunPatcherAsWritten(p: Patcher, user: UserPatchers, amb: Ambient, enc: Encoder, record: Record): (r: PatchRun)
    ensures p.AgentPatcher? && r.Ran? ==> r.returned.None?
    ensures !LocalDecoratingEnabled(ActiveSettings(amb)) ==> r.Ran?
    ensures (LocalDecoratingEnabled(ActiveSettings(amb)) && p.AgentPatcher? && p.original.Some? && p.original.value.AgentPatcher?)
              ==> r.Raised?
    decreases p
  {
    match p
    case UserPatcher(id) =>
      var u := user(id, record);
      Ran(u.patched, if u.returnsRecord then Some(u.patched) else None)
    case AgentPatcher(original) =>
      var run := if original.Some? then RunPatcherAsWritten(original.value, user, amb, enc, record)
                 else Ran(record, Some(record));
      match run
      case Raised => Raised
      case Ran(changed, bound) =>
        if !LocalDecoratingEnabled(ActiveSettings(amb)) then Ran(changed, None)
        else if bound.None? then Raised  // `None["message"]` raises TypeError
        else Ran(Decorate(amb, enc, bound.value), None)
  }

  /** As written, a user patcher that follows the loguru convention (changes the
      record in place, returns None) makes the agent's patcher raise as soon as
      local decorating is on. */
  lemma AsWrittenRaisesOnInPlacePatcher(user: UserPatchers, amb: Ambient, enc: Encoder, record: Record, id: nat)
    requires LocalDecoratingEnabled(ActiveSettings(amb))
    requires !user(id, record).returnsRecord
    ensures RunPatcherAsWritten(AgentPatcher(Some(UserPatcher(id))), user, amb, enc, record) == Raised
  {
  }

  /** A concrete run: a configured patcher that returns None, with decorating
      on, makes the log call raise. */
  lemma AsWrittenCounterexample()
    ensures var settings := Some(Settings(Some(LoggingSettings(true, true, true, true))));
            var amb := Ambient(None, settings, Some(Application(true)), map[]);
            var record := Record("hello", None, Some(Level("INFO")), 0.0);
            var user: UserPatchers := (id, r) => UserPatch(r, false);
            RunPatcherAsWritten(AgentPatcher(Some(UserPatcher(0))), user, amb, s => s, record) == Raised
  {
  }

  /** When the user's patcher does return the record it was given, the source
      and the corrected patcher agree. */
  lemma AsWrittenAgreesWhenRecordReturned(original: Option<nat>, user: UserPatchers, amb: Ambient, enc: Encoder, record: Record)
    requires original.Some? ==> user(original.value, record).returnsRecord
    ensures var p := AgentPatcher(if original.Some? then Some(UserPatcher(original.value)) else None);
            RunPatcherAsWritten(p, user, amb, enc, record) == Ran(RunPatcher(p, user, amb, enc, record), None)
  {
  }

  /** The corrected patcher runs the user's patcher first and decorates its
      result; the forwarder then sees the user's undecorated message while the
      displayed message carries the linking suffix. */
  lemma PatchThenForward(original: Option<nat>, user: UserPatchers, amb: Ambient, enc: Encoder, record: Record)
    requires original.None? ==> record.originalMessage.None?
    requires original.Some? ==> user(original.value, record).patched.originalMessage.None?
    ensures var before := if original.Some? then user(original.value, record).patched else record;
            var p := AgentPatcher(if original.Some? then Some(UserPatcher(original.value)) else None);
            var after := RunPatcher(p, user, amb, enc, record);
            && ForwardedMessage(after) == before.message
            && (LocalDecoratingEnabled(ActiveSettings(amb)) ==>
                  after.message == AddLinkingMetadata(before.message, amb.linking, enc))
            && (!LocalDecoratingEnabled(ActiveSettings(amb)) ==> after == before)
            && (ForwardingEnabled(ActiveSettings(amb)) ==>
                  Forwarder(amb, after).events == [LogEventCall(before.message, LevelName(before.level), TruncateToInt(before.time))])
  {
  }


  // ---------------------------------------------------------------------------
  // Installing the integration on a core

  /** The sinks of a core: the agent's forwarder, or any other handler. */
  datatype Sink = ForwarderSink | OtherSink(id: nat)

  /** A loguru core. `patcherAttr` is the core's own `patcher` attribute and
      `nrPatcher` its `_nr_patcher` attribute. Whether the agent's `patcher`
      property sits on loguru's `Core` class is not a field of any one core:
      the class is shared by every core in the process, so that flag is passed
      alongside as `installed`. */
  datatype Core = Core(
    sinks: seq<Sink>,
    patcherAttr: Option<Patcher>,
    nrPatcher: Option<Patcher>,
    instrumented: bool)

  /** A loguru logger; `_core` may be missing. */
  datatype Logger = Logger(core: Option<Core>)

  /** Reading `core.patcher`. Once the property is installed it shadows the
      core's own attribute, and the getter builds `_patcher` over `_nr_patcher`. */
  function GetPatcher(installed: bool, core: Core): (r: Option<Patcher>)
    ensures installed ==> r == Some(AgentPatcher(core.nrPatcher))
    ensures !installed ==> r == core.patcherAttr
  {
    if installed then Some(AgentPatcher(core.nrPatcher)) else core.patcherAttr
  }

  /** Writing `core.patcher = value`: through the setter into `_nr_patcher` once
      the property is installed. Whatever is set is read back, wrapped in the
      agent's patcher when the property is in place, so it runs first and the
      decoration still follows; the sinks and the marker are untouched. */
  function SetPatcher(installed: bool, core: Core, value: Option<Patcher>): (r: Core)
    ensures GetPatcher(installed, r) == if installed then Some(AgentPatcher(value)) else value
    ensures r.sinks == core.sinks && r.instrumented == core.instrumented
  {
    if installed then core.(nrPatcher := value) else core.(patcherAttr := value)
  }

  function CountForwarders(sinks: seq<Sink>): nat {
    if sinks == [] then 0 else (if sinks[0] == ForwarderSink then 1 else 0) + CountForwarders(sinks[1..])
  }

  lemma {:induction false} CountForwardersAppend(a: seq<Sink>, b: seq<Sink>)
    ensures CountForwarders(a + b) == CountForwarders(a) + CountForwarders(b)
    decreases |a|
  {
    if a == [] {
      assert a + b == b;
    } else {
      assert (a + b)[0] == a[0];
      assert (a + b)[1..] == a[1..] + b;
      CountForwardersAppend(a[1..], b);
    }
  }

  /** Whether `patch_loguru_logger` acts on this logger. */
  predicate Patchable(logger: Logger) {
    logger.core.Some? && !logger.core.value.instrumented
  }

  /** The process after `patch_loguru_logger`: whether the class property is
      installed, and the logger. */
  datatype Patched = Patched(installed: bool, logger: Logger)

  /** `patch_loguru_logger`: adds the forwarder sink, reads the patcher the
      core currently shows, installs the property on the class, hands the
      patcher it read to the setter and marks the core. */
  function PatchLoguruLogger(installed: bool, logger: Logger): (r: Patched)
    ensures !Patchable(logger) ==> r == Patched(installed, logger)
    ensures Patchable(logger) ==>
              && r.installed && r.logger.core.Some? && r.logger.core.value.instrumented
              && r.logger.core.value.sinks == logger.core.value.sinks + [ForwarderSink]
              && GetPatcher(true, r.logger.core.value) == Some(AgentPatcher(GetPatcher(installed, logger.core.value)))
  {
    if !Patchable(logger) then Patched(installed, logger)
    else
      var core := logger.core.value;
      var added := core.(sinks := core.sinks + [ForwarderSink]);
      var original := GetPatcher(installed, added);
      var restored := SetPatcher(true, added, original);
      Patched(true, Logger(Some(restored.(instrumented := true))))
  }

  /** Patching twice is patching once. */
  lemma PatchIdempotent(installed: bool, logger: Logger)
    ensures var p := PatchLoguruLogger(installed, logger);
            PatchLoguruLogger(p.installed, p.logger) == p
  {
  }

  /** Each patch adds at most one forwarder sink and keeps the other sinks. */
  lemma PatchAddsOneForwarder(installed: bool, logger: Logger)
    requires logger.core.Some?
    ensures var r := PatchLoguruLogger(installed, logger).logger.core.value;
            CountForwarders(r.sinks) == CountForwarders(logger.core.value.sinks) + (if Patchable(logger) then 1 else 0)
  {
    if Patchable(logger) {
      CountForwardersAppend(logger.core.value.sinks, [ForwarderSink]);
    }
  }

  /** On the first core patched in the process, the user's own patcher ends up
      wrapped once in the agent's patcher. */
  lemma FirstPatchWrapsOnce(logger: Logger)
    requires Patchable(logger)
    ensures GetPatcher(true, PatchLoguruLogger(false, logger).logger.core.value)
         == Some(AgentPatcher(logger.core.value.patcherAttr))
  {
  }

  /** Patching one core changes every other core too: the property shadows
      their own `patcher` attribute, so a patcher configured on another core
      stops running and that core shows only the agent's patcher over its
      `_nr_patcher`. */
  lemma PatchShadowsOtherCores(installed: bool, logger: Logger, other: Core)
    requires Patchable(logger)
    ensures GetPatcher(PatchLoguruLogger(installed, logger).installed, other) == Some(AgentPatcher(other.nrPatcher))
  {
  }

  /** On a later core, the property is already in place, so the patcher read
      is itself the agent's; it ends up wrapped twice, and the core's own
      configured patcher is not among them. */
  lemma LaterPatchWrapsTwice(logger: Logger)
    requires Patchable(logger)
    ensures GetPatcher(true, PatchLoguruLogger(true, logger).logger.core.value)
         == Some(AgentPatcher(Some(AgentPatcher(logger.core.value.nrPatcher))))
  {
  }

  /** As written, every log call through a later core raises once local
      decorating is on: the inner agent patcher returns None, and the outer
      one decorates that. */
  lemma AsWrittenRaisesOnLaterCore(logger: Logger, user: UserPatchers, amb: Ambient, enc: Encoder, record: Record)
    requires Patchable(logger)
    requires LocalDecoratingEnabled(ActiveSettings(amb))
    ensures var core := PatchLoguruLogger(true, logger).logger.core.value;
            RunPatcherAsWritten(GetPatcher(true, core).value, user, amb, enc, record) == Raised
  {
    LaterPatchWrapsTwice(logger);
  }

  /** The corrected patcher on a later core whose `_nr_patcher` was never set
      does not raise, but it decorates twice: the forwarder receives the
      once-decorated message rather than the user's text. */
  lemma CorrectedLaterCoreDecoratesTwice(logger: Logger, user: UserPatchers, amb: Ambient, enc: Encoder, record: Record)
    requires Patchable(logger) && logger.core.value.nrPatcher.None?
    requires LocalDecoratingEnabled(ActiveSettings(amb))
    ensures var core := PatchLoguruLogger(true, logger).logger.core.value;
            var after := RunPatcher(GetPatcher(true, core).value, user, amb, enc, record);
            var once := AddLinkingMetadata(record.message, amb.linking, enc);
            && ForwardedMessage(after) == once
            && after.message == AddLinkingMetadata(once, amb.linking, enc)
  {
    LaterPatchWrapsTwice(logger);
  }

  // ---------------------------------------------------------------------------
  // One log call through a patched core

  /** Runs every sink of the core on the patched record; only the agent's
      forwarder has an effect the model tracks. */
  function RunSinks(sinks: seq<Sink>, amb: Ambient, record: Record): (r: seq<ForwarderEffect>)
    ensures |r| == CountForwarders(sinks)
    ensures forall i :: 0 <= i < |r| ==> r[i] == Forwarder(amb, record)
  {
    if sinks == [] then []
    else (if sinks[0] == ForwarderSink then [Forwarder(amb, record)] else []) + RunSinks(sinks[1..], amb, record)
  }

  /** A log call with the corrected patcher (`RunPatcher`), for a record at or
      above the level of every sink, the forwarder's included (DEBUG by default):
      loguru runs the core's patcher on the record, then hands the record to
      each sink. Sink levels are not modelled. Returns the record as displayed
      and the forwarder effects. As written, the agent's
      patcher raises before any sink runs in the cases
      `AsWrittenRaisesOnInPlacePatcher` and `AsWrittenRaisesOnLaterCore` name. */
  function LogCall(installed: bool, core: Core, user: UserPatchers, amb: Ambient, enc: Encoder, record: Record): (Record, seq<ForwarderEffect>) {
    var patcher := GetPatcher(installed, core);
    var patched := if patcher.Some? then RunPatcher(patcher.value, user, amb, enc, record) else record;
    (patched, RunSinks(core.sinks, amb, patched))
  }

  /** With the corrected patcher, after `patch_loguru_logger` is called twice
      on the first core of the process (`PatchIdempotent` extends this to any
      number of calls), each log call at or above the forwarder sink's level is
      forwarded exactly once, with the
      message the user's patcher produced, while the displayed message carries
      the linking suffix when local decorating is on. */
  lemma PatchedLogCall(logger: Logger, user: UserPatchers, amb: Ambient, enc: Encoder, record: Record)
    requires Patchable(logger)
    requires CountForwarders(logger.core.value.sinks) == 0
    requires logger.core.value.patcherAttr.None? || logger.core.value.patcherAttr.value.UserPatcher?
    requires var p := logger.core.value.patcherAttr;
             p.None? ==> record.originalMessage.None?
    requires var p := logger.core.value.patcherAttr;
             p.Some? ==> user(p.value.id, record).patched.originalMessage.None?
    ensures var once := PatchLoguruLogger(false, logger);
            var twice := PatchLoguruLogger(once.installed, once.logger);
            var p := logger.core.value.patcherAttr;
            var before := if p.Some? then user(p.value.id, record).patched else record;
            var (shown, effects) := LogCall(twice.installed, twice.logger.core.value, user, amb, enc, record);
            && |effects| == 1
            && (LocalDecoratingEnabled(ActiveSettings(amb)) ==>
                  shown.message == AddLinkingMetadata(before.message, amb.linking, enc))
            && (ForwardingEnabled(ActiveSettings(amb)) ==>
                  effects[0].events == [LogEventCall(before.message, LevelName(before.level), TruncateToInt(before.time))])
  {
    PatchIdempotent(false, logger);
    PatchAddsOneForwarder(false, logger);
    FirstPatchWrapsOnce(logger);
    var p := logger.core.value.patcherAttr;
    PatchThenForward(if p.Some? then Some(p.value.id) else None, user, amb, enc, record);
  }
}

=== FILE: text.dfy ===
/**
 Python string primitives used by the instrumentation: `str.find` and
 `str.rfind` restricted to a window, `str.startswith`, ASCII lower-casing,
 and splicing a piece of text into a string.
 */
module Text {
  import opened Wrappers

  /** `sub` occurs in `s` starting at index `i`. */
  predicate MatchAt(s: string, sub: string, i: nat) {
    i + |sub| <= |s| && s[i..i + |sub|] == sub
  }

  /** `i` is the first start of `sub` in `s`. */
  ghost predicate IsFirstMatch(s: string, sub: string, i: nat) {
    MatchAt(s, sub, i) && forall j :: 0 <= j < i ==> !MatchAt(s, sub, j)
  }

  /** A one-character match is an index holding that character. */
  lemma MatchSingle(s: string, ch: char)
    ensures forall i: nat :: MatchAt(s, [ch], i) <==> i < |s| && s[i] == ch
  {
    forall i: nat | i < |s| && s[i] == ch
      ensures MatchAt(s, [ch], i)
    {
      assert s[i..i + 1] == [s[i]];
    }
  }

  /** `sub` occurs nowhere in `s`. */
  ghost predicate NoMatch(s: string, sub: string) {
    forall j :: 0 <= j ==> !MatchAt(s, sub, j)
  }

  function Min(a: nat, b: nat): nat {
    if a <= b then a else b
  }

  /** `s.find(sub, lo, hi)` for `hi <= |s|`: the lowest start whose whole match
      lies inside `s[lo..hi]`, or None (Python's -1). */
  function Find(s: string, sub: string, lo: nat, hi: nat): (r: Option<nat>)
    requires hi <= |s|
    ensures r.Some? ==> lo <= r.value && r.value + |sub| <= hi && MatchAt(s, sub, r.value)
    ensures r.Some? ==> forall i :: lo <= i < r.value ==> !MatchAt(s, sub, i)
    ensures r.None? ==> forall i :: lo <= i && i + |sub| <= hi ==> !MatchAt(s, sub, i)
    decreases hi - lo
  {
    if hi < lo + |sub| then None
    else if MatchAt(s, sub, lo) then Some(lo)
    else Find(s, sub, lo + 1, hi)
  }

  /** `s.rfind(sub, lo, hi)` for `hi <= |s|`: the highest start whose whole
      match lies inside `s[lo..hi]`, or None (Python's -1). */
  function RFind(s: string, sub: string, lo: nat, hi: nat): (r: Option<nat>)
    requires hi <= |s|
    ensures r.Some? ==> lo <= r.value && r.value + |sub| <= hi && MatchAt(s, sub, r.value)
    ensures r.Some? ==> forall i :: r.value < i && i + |sub| <= hi ==> !MatchAt(s, sub, i)
    ensures r.None? ==> forall i :: lo <= i && i + |sub| <= hi ==> !MatchAt(s, sub, i)
    decreases hi
  {
    if hi < lo + |sub| then None
    else if MatchAt(s, sub, hi - |sub|) then Some(hi - |sub|)
    else RFind(s, sub, lo, hi - 1)
  }

  /** `s.startswith(prefix)`. */
  predicate StartsWith(s: string, prefix: string) {
    |prefix| <= |s| && s[..|prefix|] == prefix
  }

  function LowerChar(c: char): char {
    if 'A' <= c <= 'Z' then (c as int + 32) as char else c
  }

  /** Lower-cases the ASCII letters of `s` and keeps every other character. */
  function AsciiLower(s: string): (r: string)
    ensures |r| == |s|
    ensures forall i :: 0 <= i < |s| ==> r[i] == LowerChar(s[i])
  {
    if s == [] then [] else [LowerChar(s[0])] + AsciiLower(s[1..])
  }

  /** `s` with `piece` spliced in at index `i`. */
  function InsertAt(s: string, i: nat, piece: string): (r: string)
    requires i <= |s|
    ensures |r| == |s| + |piece|
    ensures r[..i] == s[..i] && r[i..i + |piece|] == piece && r[i + |piece|..] == s[i..]
  {
    s[..i] + piece + s[i..]
  }

  /** `s` with the `n` characters starting at index `i` deleted. */
  function Cut(s: string, i: nat, n: nat): (r: string)
    requires i + n <= |s|
    ensures |r| == |s| - n
    ensures r[..i] == s[..i] && r[i..] == s[i + n..]
  {
    s[..i] + s[i + n..]
  }

  /** Inserting `x` at `p` and `y` at a later `e` is one concatenation, and
      cutting both out again restores `s`. */
  lemma InsertTwice(s: string, p: nat, x: string, e: nat, y: string)
    requires p <= e <= |s|
    ensures s[..p] + x + s[p..e] + y + s[e..] == InsertAt(InsertAt(s, e, y), p, x)
    ensures Cut(Cut(InsertAt(InsertAt(s, e, y), p, x), p, |x|), e, |y|) == s
  {
    var inner := InsertAt(s, e, y);
    assert inner[..p] == s[..p];
    assert inner[p..] == s[p..e] + y + s[e..];
    CutInsertAt(inner, p, x);
    CutInsertAt(s, e, y);
  }

  /** Cutting out a spliced piece gives back the string it was spliced into. */
  lemma CutInsertAt(s: string, i: nat, piece: string)
    requires i <= |s|
    ensures Cut(InsertAt(s, i, piece), i, |piece|) == s
  {
    var t := InsertAt(s, i, piece);
    var u := Cut(t, i, |piece|);
    assert u[..i] == s[..i];
    assert u[i..] == s[i..];
    assert u == u[..i] + u[i..];
    assert s == s[..i] + s[i..];
  }
}

=== FILE: utilization.dfy ===
/**
 Cloud-vendor utilization metadata sanitiser (newrelic/common/utilization_common.py).

 Values fetched from a vendor's metadata endpoint are accepted only when, after
 stripping surrounding whitespace, they are non-empty, fit in 255 UTF-8 bytes and
 contain no ASCII character outside `[0-9a-zA-Z_ ./-]`. A vendor's whole record is
 accepted only when every expected key passes; otherwise one error is reported.
 */
module Utilization {
  import opened Wrappers

  newtype byte = b: int | 0 <= b < 0x100

  /** Upper bound on the UTF-8 size of one metadata value. */
  const MaxValueBytes := 255

  // ---------------------------------------------------------------------------
  // UTF-8, as `str.encode('utf-8')` produces it

  /** Number of bytes UTF-8 spends on `c`. */
  function Utf8Width(c: char): (w: nat)
    ensures 1 <= w <= 4
    ensures w == 1 <==> c as int < 0x80
  {
    var n := c as int;
    if n < 0x80 then 1 else if n < 0x800 then 2 else if n < 0x10000 then 3 else 4
  }

  function EncodeChar(c: char): (r: seq<byte>)
    ensures |r| == Utf8Width(c)
  {
    var n := c as int;
    if n < 0x80 then
      [n as byte]
    else if n < 0x800 then
      [(0xC0 + n / 0x40) as byte, (0x80 + n % 0x40) as byte]
    else if n < 0x10000 then
      [(0xE0 + n / 0x1000) as byte, (0x80 + (n / 0x40) % 0x40) as byte, (0x80 + n % 0x40) as byte]
    else
      [(0xF0 + n / 0x40000) as byte, (0x80 + (n / 0x1000) % 0x40) as byte,
       (0x80 + (n / 0x40) % 0x40) as byte, (0x80 + n % 0x40) as byte]
  }

  /** `s.encode('utf-8')`. */
  function Utf8Encode(s: string): seq<byte> {
    if s == [] then [] else EncodeChar(s[0]) + Utf8Encode(s[1..])
  }

  /** Sequence length a UTF-8 lead byte announces; 0 for a byte that cannot lead. */
  function LeadWidth(b: byte): nat {
    if b < 0x80 then 1
    else if 0xC0 <= b < 0xE0 then 2
    else if 0xE0 <= b < 0xF0 then 3
    else if 0xF0 <= b < 0xF8 then 4
    else 0
  }

  predicate IsContinuation(b: byte) {
    0x80 <= b < 0xC0
  }

  /** The character with code point `n`, when `n` is a Unicode scalar value. */
  function ScalarOf(n: int): Option<char> {
    if 0 <= n < 0xD800 || 0xE000 <= n < 0x11_0000 then Some(n as char) else None
  }

  /** Decodes one UTF-8 sequence of exactly `|b|` bytes, rejecting overlong forms. */
  function DecodeChar(b: seq<byte>): Option<char> {
    if |b| == 1 && b[0] < 0x80 then
      Some(b[0] as int as char)
    else if |b| == 2 && 0xC0 <= b[0] < 0xE0 && IsContinuation(b[1]) then
      var n := (b[0] as int - 0xC0) * 0x40 + (b[1] as int - 0x80);
      if n < 0x80 then None else ScalarOf(n)
    else if |b| == 3 && 0xE0 <= b[0] < 0xF0 && IsContinuation(b[1]) && IsContinuation(b[2]) then
      var n := (b[0] as int - 0xE0) * 0x1000 + (b[1] as int - 0x80) * 0x40 + (b[2] as int - 0x80);
      if n < 0x800 then None else ScalarOf(n)
    else if |b| == 4 && 0xF0 <= b[0] < 0xF8 && IsContinuation(b[1]) && IsContinuation(b[2]) && IsContinuation(b[3]) then
      var n := (b[0] as int - 0xF0) * 0x40000 + (b[1] as int - 0x80) * 0x1000
        + (b[2] as int - 0x80) * 0x40 + (b[3] as int - 0x80);
      if n < 0x10000 then None else ScalarOf(n)
    else
      None
  }

  /** `b.decode('utf-8')`, or None for a malformed sequence. */
  function Utf8Decode(b: seq<byte>): Option<string>
    decreases |b|
  {
    if b == [] then Some([])
    else
      var w := LeadWidth(b[0]);
      if w == 0 || |b| < w then None
      else match (DecodeChar(b[..w]), Utf8Decode(b[w..]))
        case (Some(c), Some(rest)) => Some([c] + rest)
        case _ => None
  }

  lemma EncodeCharLead(c: char)
    ensures LeadWidth(EncodeChar(c)[0]) == Utf8Width(c)
  {
  }

  lemma DecodeEncodeChar(c: char)
    ensures DecodeChar(EncodeChar(c)) == Some(c)
  {
    var n := c as int;
    if n < 0x80 {
    } else if n < 0x800 {
      DecodeEncodeTwo(c);
    } else if n < 0x10000 {
      DecodeEncodeThree(c);
    } else {
      DecodeEncodeFour(c);
    }
  }

  lemma DecodeEncodeTwo(c: char)
    requires 0x80 <= c as int < 0x800
    ensures DecodeChar(EncodeChar(c)) == Some(c)
  {
    var n := c as int;
    assert n == (n / 0x40) * 0x40 + n % 0x40;
  }

  lemma DecodeEncodeThree(c: char)
    requires 0x800 <= c as int < 0x10000
    ensures DecodeChar(EncodeChar(c)) == Some(c)
  {
    var n := c as int;
    assert n / 0x40 == (n / 0x1000) * 0x40 + (n / 0x40) % 0x40;
    assert n == (n / 0x1000) * 0x1000 + ((n / 0x40) % 0x40) * 0x40 + n % 0x40;
  }

  lemma DecodeEncodeFour(c: char)
    requires 0x10000 <= c as int
    ensures DecodeChar(EncodeChar(c)) == Some(c)
  {
    var n := c as int;
    assert n / 0x1000 == (n / 0x40000) * 0x40 + (n / 0x1000) % 0x40;
    assert n / 0x40 == (n / 0x1000) * 0x40 + (n / 0x40) % 0x40;
    assert n == (n / 0x40000) * 0x40000 + ((n / 0x1000) % 0x40) * 0x1000
      + ((n / 0x40) % 0x40) * 0x40 + n % 0x40;
  }

  /** Decoding the UTF-8 encoding of a string gives the string back. */
  lemma {:induction false} DecodeEncode(s: string)
    ensures Utf8Decode(Utf8Encode(s)) == Some(s)
    decreases |s|
  {
    if s != [] {
      var head := EncodeChar(s[0]);
      var b := Utf8Encode(s);
      assert b == head + Utf8Encode(s[1..]);
      EncodeCharLead(s[0]);
      assert b[0] == head[0];
      assert b[..|head|] == head;
      assert b[|head|..] == Utf8Encode(s[1..]);
      DecodeEncodeChar(s[0]);
      DecodeEncode(s[1..]);
      assert [s[0]] + s[1..] == s;
    }
  }

  /** Every character costs between one and four bytes. */
  lemma {:induction false} EncodeLengthBounds(s: string)
    ensures |s| <= |Utf8Encode(s)| <= 4 * |s|
  {
    if s != [] {
      EncodeLengthBounds(s[1..]);
    }
  }

  /** An ASCII-only string encodes to one byte per character. */
  lemma {:induction false} EncodeLengthAscii(s: string)
    requires forall i :: 0 <= i < |s| ==> s[i] as int < 0x80
    ensures |Utf8Encode(s)| == |s|
  {
    if s != [] {
      EncodeLengthAscii(s[1..]);
    }
  }

  // ---------------------------------------------------------------------------
  // valid_length and valid_chars

  /** `valid_length`: the UTF-8 encoding is at most 255 bytes long. */
  function ValidLength(data: string): (ok: bool)
    ensures ok ==> |data| <= MaxValueBytes
    ensures |data| <= MaxValueBytes / 4 ==> ok
  {
    EncodeLengthBounds(data);
    |Utf8Encode(data)| <= MaxValueBytes
  }

  /** On ASCII text `valid_length` is exactly "at most 255 characters". */
  lemma ValidLengthAscii(data: string)
    ensures (forall i :: 0 <= i < |data| ==> data[i] as int < 0x80) ==>
              (ValidLength(data) <==> |data| <= MaxValueBytes)
  {
    if forall i :: 0 <= i < |data| ==> data[i] as int < 0x80 {
      EncodeLengthAscii(data);
    }
  }

  /** A character the pattern `[0-9a-zA-Z_ ./-]` matches. */
  predicate PatternChar(c: char) {
    || '0' <= c <= '9'
    || 'a' <= c <= 'z'
    || 'A' <= c <= 'Z'
    || c == '_' || c == ' ' || c == '.' || c == '/' || c == '-'
  }

  /** `valid_chars`: scans the characters in order and fails on the first ASCII
      character the pattern rejects; non-ASCII characters always pass. */
  function ValidChars(data: string): (ok: bool)
    ensures ok <==> forall i :: 0 <= i < |data| ==> PatternChar(data[i]) || data[i] as int >= 0x80
  {
    if data == [] then true
    else if !PatternChar(data[0]) && data[0] as int < 0x80 then false
    else ValidChars(data[1..])
  }

  // ---------------------------------------------------------------------------
  // str.strip

  /** The characters Python's argument-less `str.strip` removes (`str.isspace`). */
  predicate IsSpace(c: char) {
    var n := c as int;
    || 0x09 <= n <= 0x0D
    || 0x1C <= n <= 0x20
    || n == 0x85 || n == 0xA0 || n == 0x1680
    || 0x2000 <= n <= 0x200A
    || n == 0x2028 || n == 0x2029 || n == 0x202F || n == 0x205F || n == 0x3000
  }

  ghost predicate AllSpace(s: string) {
    forall i :: 0 <= i < |s| ==> IsSpace(s[i])
  }

  /** Neither end of `s` is whitespace. */
  predicate Trimmed(s: string) {
    s == [] || (!IsSpace(s[0]) && !IsSpace(s[|s| - 1]))
  }

  function StripLeft(s: string): (r: string)
    ensures |r| <= |s| && r == s[|s| - |r|..]
    ensures r == [] || !IsSpace(r[0])
    ensures AllSpace(s[..|s| - |r|])
  {
    if s != [] && IsSpace(s[0]) then
      var t := s[1..];
      var r := StripLeft(t);
      assert s[|s| - |r|..] == t[|t| - |r|..];
      assert forall i :: 1 <= i < |s| - |r| ==> s[i] == t[i - 1];
      r
    else
      s
  }

  function StripRight(s: string): (r: string)
    ensures |r| <= |s| && r == s[..|r|]
    ensures r == [] || !IsSpace(r[|r| - 1])
    ensures AllSpace(s[|r|..])
  {
    if s != [] && IsSpace(s[|s| - 1]) then
      var t := s[..|s| - 1];
      var r := StripRight(t);
      assert s[..|r|] == t[..|r|];
      assert s[|r|..] == t[|r|..] + [s[|s| - 1]];
      r
    else
      s
  }

  /** `s.strip()`. */
  function Strip(s: string): (r: string)
    ensures Trimmed(r)
  {
    var l := StripLeft(s);
    var r := StripRight(l);
    assert r != [] ==> r[0] == l[0];
    r
  }

  /** The stripped string is the slice of `s` left after removing a whitespace
      prefix and a whitespace suffix, and it has no whitespace at either end. */
  lemma StripSlice(s: string) returns (lo: nat, hi: nat)
    ensures lo <= hi <= |s| && Strip(s) == s[lo..hi]
    ensures AllSpace(s[..lo]) && AllSpace(s[hi..])
  {
    var l := StripLeft(s);
    var r := StripRight(l);
    lo := |s| - |l|;
    hi := lo + |r|;
    SliceOfSuffix(s, lo, |r|);
  }

  /** Slicing the suffix `s[lo..]` at `k` slices `s` at `lo + k`. */
  lemma SliceOfSuffix(s: string, lo: nat, k: nat)
    requires lo + k <= |s|
    ensures s[lo..][..k] == s[lo..lo + k] && s[lo..][k..] == s[lo + k..]
  {
  }

  /** `lstrip` removes exactly a whitespace prefix in front of a text that does
      not start with whitespace. */
  lemma {:induction false} StripLeftOf(w: string, t: string)
    requires AllSpace(w) && (t == [] || !IsSpace(t[0]))
    ensures StripLeft(w + t) == t
    decreases |w|
  {
    if w == [] {
      assert w + t == t;
    } else {
      assert (w + t)[0] == w[0];
      assert (w + t)[1..] == w[1..] + t;
      StripLeftOf(w[1..], t);
    }
  }

  /** `rstrip` removes exactly a whitespace suffix behind a text that does not
      end with whitespace. */
  lemma {:induction false} StripRightOf(t: string, w: string)
    requires AllSpace(w) && (t == [] || !IsSpace(t[|t| - 1]))
    ensures StripRight(t + w) == t
    decreases |w|
  {
    if w == [] {
      assert t + w == t;
    } else {
      var u := t + w;
      assert u[|u| - 1] == w[|w| - 1];
      assert u[..|u| - 1] == t + w[..|w| - 1];
      StripRightOf(t, w[..|w| - 1]);
    }
  }

  /** `strip` removes exactly the surrounding whitespace: wrapping a trimmed
      string in whitespace on both sides and stripping gives it back. */
  lemma StripUnique(w1: string, t: string, w2: string)
    requires AllSpace(w1) && AllSpace(w2) && Trimmed(t)
    ensures Strip(w1 + t + w2) == t
  {
    if t == [] {
      assert w1 + t + w2 == w1 + w2 + [];
      StripLeftOf(w1 + w2, []);
    } else {
      assert w1 + t + w2 == w1 + (t + w2);
      assert (t + w2)[0] == t[0];
      StripLeftOf(w1, t + w2);
      StripRightOf(t, w2);
    }
  }

  /** Stripping twice is stripping once. */
  lemma StripIdempotent(s: string)
    ensures Strip(Strip(s)) == Strip(s)
  {
    StripUnique([], Strip(s), []);
    assert [] + Strip(s) + [] == Strip(s);
  }

  // ---------------------------------------------------------------------------
  // normalize and sanitize

  /** A value decoded from the vendor's JSON document: a string, or any other
      JSON value, which only carries its Python truthiness. */
  datatype Metadata = Text(s: string) | NonText(truthy: bool)

  predicate Truthy(m: Metadata) {
    match m
    case Text(s) => s != []
    case NonText(t) => t
  }

  /** `normalize`: the stripped value when it is non-empty, short enough and
      made of valid characters; None otherwise. A non-string value has no
      `strip`, and the bare `except` turns that into None as well. */
  function Normalize(data: Metadata): (r: Option<string>)
    ensures r.Some? ==> data.Text? && r.value == Strip(data.s)
    ensures r.Some? ==> r.value != [] && Trimmed(r.value) && ValidLength(r.value) && ValidChars(r.value)
    ensures data.Text? && Strip(data.s) != [] && ValidLength(Strip(data.s)) && ValidChars(Strip(data.s)) ==> r.Some?
  {
    match data
    case NonText(_) => None
    case Text(s) =>
      var stripped := Strip(s);
      if stripped != [] && ValidLength(stripped) && ValidChars(stripped) then Some(stripped) else None
  }

  /** `normalize` is idempotent: a value it produced is accepted unchanged. */
  lemma NormalizeIdempotent(data: Metadata, y: string)
    requires Normalize(data) == Some(y)
    ensures Normalize(Text(y)) == Some(y)
  {
    StripIdempotent(data.s);
  }

  /** `normalize` accepts a valid value however much whitespace surrounds it. */
  lemma NormalizeIgnoresPadding(w1: string, t: string, w2: string)
    requires AllSpace(w1) && AllSpace(w2) && Trimmed(t)
    requires t != [] && ValidLength(t) && ValidChars(t)
    ensures Normalize(Text(w1 + t + w2)) == Some(t)
  {
    StripUnique(w1, t, w2);
  }

  /** A vendor (one `CommonUtilization` subclass): its name and the keys its
      metadata document must carry, in the order they are checked. */
  datatype Vendor = Vendor(name: string, expectedKeys: seq<string>)

  /** A vendor's `normalize(key, data)`; subclasses may override the base one. */
  type Normalizer = (string, Metadata) -> Option<string>

  /** The base class's `normalize`, which ignores the key. */
  function BaseNormalize(key: string, data: Metadata): Option<string> {
    Normalize(data)
  }

  /** One call of `record_error`: the supportability metric it increments by
      one, and the offending value it logs (None when the key was missing). */
  datatype ErrorReport = ErrorReport(metric: string, data: Option<Metadata>)

  function ErrorMetricName(vendorName: string): string {
    "Supportability/utilization/" + vendorName + "/error"
  }

  /** `values.get(key, None)`. */
  function Lookup(values: map<string, Metadata>, key: string): Option<Metadata> {
    if key in values then Some(values[key]) else None
  }

  /** Python truthiness of a normalised value. */
  predicate Present(v: Option<string>) {
    v.Some? && v.value != []
  }

  /** The value `sanitize` keeps for `key`: None when the key is missing, the
      value is falsy, or `normalize` gives a falsy result. */
  function Accepted(normalize: Normalizer, values: map<string, Metadata>, key: string): Option<string> {
    match Lookup(values, key)
    case None => None
    case Some(m) => if Truthy(m) && Present(normalize(key, m)) then normalize(key, m) else None
  }

  /** `keys[i]` is the first key `sanitize` rejects. */
  ghost predicate FirstRejected(normalize: Normalizer, values: map<string, Metadata>, keys: seq<string>, i: nat) {
    && i < |keys|
    && Accepted(normalize, values, keys[i]).None?
    && forall j :: 0 <= j < i ==> Accepted(normalize, values, keys[j]).Some?
  }

  /** `sanitize`: walks the expected keys in order; on the first rejected key it
      records one error and returns None, otherwise it returns the normalised
      value of every expected key. */
  method Sanitize(vendor: Vendor, normalize: Normalizer, values: map<string, Metadata>)
    returns (out: Option<map<string, string>>, errors: seq<ErrorReport>)
    ensures out.Some? <==> forall i :: 0 <= i < |vendor.expectedKeys| ==> Accepted(normalize, values, vendor.expectedKeys[i]).Some?
    ensures out.Some? ==> errors == []
    ensures out.Some? ==> out.value.Keys == set k | k in vendor.expectedKeys
    ensures out.Some? ==> forall k :: k in out.value ==> Accepted(normalize, values, k) == Some(out.value[k])
    ensures out.None? ==>
              exists i :: 0 <= i && (FirstRejected(normalize, values, vendor.expectedKeys, i)
                                     && errors == [ErrorReport(ErrorMetricName(vendor.name), Lookup(values, vendor.expectedKeys[i]))])
  {
    var keys := vendor.expectedKeys;
    var result: map<string, string> := map[];
    var i := 0;
    while i < |keys|
      invariant 0 <= i <= |keys|
      invariant forall j :: 0 <= j < i ==> Accepted(normalize, values, keys[j]).Some?
      invariant result.Keys == set j | 0 <= j < i :: keys[j]
      invariant forall k :: k in result ==> Accepted(normalize, values, k) == Some(result[k])
    {
      var key := keys[i];
      var metadata := Lookup(values, key);
      if metadata.None? || !Truthy(metadata.value) {
        assert FirstRejected(normalize, values, keys, i);
        return None, [ErrorReport(ErrorMetricName(vendor.name), metadata)];
      }
      var normalized := normalize(key, metadata.value);
      if !Present(normalized) {
        assert FirstRejected(normalize, values, keys, i);
        return None, [ErrorReport(ErrorMetricName(vendor.name), metadata)];
      }
      result := result[key := normalized.value];
      i := i + 1;
    }
    assert result.Keys == set k | k in keys;
    return Some(result), [];
  }

  /** With the base `normalize`, every value `sanitize` keeps is the stripped
      metadata string, non-empty, within the byte limit and of valid characters. */
  lemma BaseAcceptedIsClean(values: map<string, Metadata>, key: string)
    requires Accepted(BaseNormalize, values, key).Some?
    ensures key in values && values[key].Text?
    ensures Accepted(BaseNormalize, values, key).value == Strip(values[key].s)
    ensures var v := Accepted(BaseNormalize, values, key).value;
              v != [] && Trimmed(v) && ValidLength(v) && ValidChars(v)
  {
  }

  /** With the base `normalize`, a key is rejected exactly when it is missing,
      its value is not a string, or the stripped string is empty, too long or
      holds a forbidden character. */
  lemma BaseRejection(values: map<string, Metadata>, key: string)
    ensures Accepted(BaseNormalize, values, key).None? <==>
              (|| key !in values
               || !values[key].Text?
               || var v := Strip(values[key].s); v == [] || !ValidLength(v) || !ValidChars(v))
  {
  }
}

=== FILE: wrappers.dfy ===
/** Optional values shared by every module of the model. */
module Wrappers {

  /** Python's "value or None". */
  datatype Option<+T> = None | Some(value: T) {

    /** The wrapped value, or `default` when there is none. */
    function GetOr(default: T): T {
      match this
      case Some(v) => v
      case None => default
    }
  }
}
